=== FILE: README.md ===
# mongo-orm in Dafny

A model of the core of mongo-orm, a small Java object-document mapper for
MongoDB, with proofs about it. The library has two variants that share most of
their logic:

- the **newleaf** variant (`top.newleaf.mongo`): a nested bean codec that maps
  POJOs to BSON documents, with custom-typed fields and lists of them stored as
  embedded documents; a class-path scanner with a scan action that collects codec
  classes; and a singleton factory that reads `mongo.xml` and opens connections
  once;
- the **Spring Boot starter** (`org.mongo.spring.boot.autoconfigure`): a flat
  bean codec that stores values unchanged, and a factory that scans one codec
  package and opens one database from the `uri`, `name` and `codecPackage`
  properties.

Reflection is replaced by an explicit schema (`Schema`). For each class it holds
the declared fields in order, each with its `@Column` override, `@Transient`
flag, declared type and default value. It also holds the public getter and
setter names, and whether `newInstance` succeeds. Objects are `Value`s. A BSON
`Document` is an insertion-ordered sequence of entries, and `put` replaces a
value in place (`Documents`). The class loader and `Class.forName` are
replaced by given tables: directory trees, jar entry lists, and facts about
each loadable class. The MongoDB driver is replaced by records of what each
client would be built from.

Modules, following the source:

| module | models |
|---|---|
| `Results` | nullable values and the exceptions callers can observe |
| `Strings` | `indexOf`, `lastIndexOf`, `startsWith`, `endsWith`, `replace` |
| `Documents` | `org.bson.Document` as an ordered map |
| `Naming` | `getColumnName`, `getMethodGetName`, `getMethodSetName` (identical in both codecs) |
| `Schema` | declared fields, `isGenericType`, column names, which arguments `Method.invoke` accepts (unboxing, widening and the Map classes included) and what the field then holds |
| `BeanCodec`, `BeanCodecEncode`, `BeanCodecDecode`, `BeanCodecRoundTrip` | the newleaf codec and its properties |
| `LegacyCodec` | the starter's flat codec, and how it relates to the newleaf one |
| `Scanner` | `ClassScanner` (and the starter's private copy of it) |
| `ScanAction` | `BeanCodecScanAction.doAction` and the starter's `addCodec` |
| `Tables` | `getCollectionName` and its cache (identical in both factories) |
| `Factory` | the newleaf `MongoFactory` |
| `SpringFactory` | the starter's `MongoFactory` |

The headline results:

- `BeanCodecRoundTrip.BeanRoundTrip` proves that decoding the encoding of a
  bean gives the bean back. It covers nested custom objects and lists of them.
  The bean must satisfy `BeanCodecRoundTrip.BeanRT`, which requires all of the
  following, and the same again for every nested custom object:
  - its class can be instantiated, and its field names and columns are
    pairwise distinct;
  - it holds exactly the declared fields;
  - each transient or `_id` field holds its default;
  - every other field has a getter and a setter, and a value the setter
    accepts, a primitive field holding its own primitive type;
  - a field holds null only where its default is null too. Otherwise
    decoding restores the default: an `Integer` field with default 5 that
    holds null is written as null and read back as 5;
  - a list of a custom element type holds no null element. Such an element
    would come back as a fresh instance.

  `LegacyCodec.RoundTrip` proves the same for the flat codec, on classes
  whose fields are all primitive, boxed, or lists of such types. On other
  classes the flat codec stores a custom-typed value as the object itself
  (`LegacyCodec.NoNestedConversion`).
- `Naming.GetColumnName` proves that the imperative `StringBuilder` loop
  computes a piecewise reference definition.
  `Naming.ColumnNameUnchangedIff` characterises the names it leaves alone.
  The code keeps runs of capitals as they are, so `"URLPath"` stays
  `"URLPath"` (`Naming.ColumnNameExamples`).
- The scanner and scan actions are proved to report what they should:
  - every `.class` file is reported once, under a name inside the package;
  - the recursive jar filter is a bare string prefix, so package `a.b` also
    picks up `a.bc.X` (`Scanner.PrefixFilterQuirk`);
  - the codec set gains one instance per reported codec class, and a class
    reported twice is registered twice;
  - the starter's scan stops at the first class it cannot load or instantiate.
- `Factory.CreateConnections` runs once and registers connections so that the
  last one of each name wins. The default database is the last connection
  marked default.

## Model

| member | source | states |
|---|---|---|
| Naming.GetColumnName | src/main/java/top/newleaf/mongo/codec/BeanCodec.java:255-271 | the StringBuilder loop, run on any field name, returns the piecewise reference column name, one character longer per inserted separator |
| Naming.ColumnNameUnchangedIff | src/main/java/top/newleaf/mongo/codec/BeanCodec.java:258-268 | a field name comes back unchanged exactly when no uppercase letter follows a non-uppercase character |
| Naming.ColumnNameSplitsAtBoundary | src/main/java/top/newleaf/mongo/codec/BeanCodec.java:261-266 | an uppercase letter after a non-uppercase one becomes '_' and its lowercase form, at its index shifted by the separators before it |
| Naming.ColumnNameKeepsUpperRun | src/main/java/top/newleaf/mongo/codec/BeanCodec.java:261-264 | an uppercase letter right after another uppercase letter is copied with its case kept |
| Naming.ColumnNameKeepsFirst | src/main/java/top/newleaf/mongo/codec/BeanCodec.java:258-261 | the first character is never changed |
| Naming.ColumnNameExamples | src/main/java/top/newleaf/mongo/codec/BeanCodec.java:255-271 | "userName" maps to "user_name", "id" to itself, and "URLPath" to itself |
| Naming.ColumnNamesCollide | src/main/java/top/newleaf/mongo/codec/BeanCodec.java:255-271 | the conversion is not injective: "aB" and "a_b" both become "a_b", so two declared fields can land on one column |
| Naming.AccessorNamesAgree | src/main/java/top/newleaf/mongo/codec/BeanCodec.java:273-281 | two fields share a getter name iff they share a setter name iff they agree after the first character and their first characters uppercase alike |
| Documents.Lookup | src/main/java/top/newleaf/mongo/codec/BeanCodec.java:149 | a key is absent exactly when no entry has it; a present key yields a value stored under it |
| Documents.Put | src/main/java/top/newleaf/mongo/codec/BeanCodec.java:113-115 | put of a present key keeps the key order; put of a new key appends it |
| Documents.PutReads | src/main/java/top/newleaf/mongo/codec/BeanCodec.java:113-115 | after put the key reads back as the new value |
| Documents.PutKeepsOthers | src/main/java/top/newleaf/mongo/codec/BeanCodec.java:113-115 | put leaves every other key's value unchanged |
| Documents.PutUnique | src/main/java/top/newleaf/mongo/codec/BeanCodec.java:113-115 | put keeps keys pairwise distinct and the existing keys in their positions |
| Schema.Defaults | src/main/java/top/newleaf/mongo/codec/BeanCodec.java:57-58 | a fresh instance has a slot for exactly the declared fields |
| BeanCodec.EncodeList | src/main/java/top/newleaf/mongo/codec/BeanCodec.java:178-192 | a list of a custom type encodes to one document per element, in order, each the element's field-by-field encoding |
| BeanCodec.DecodeList | src/main/java/top/newleaf/mongo/codec/BeanCodec.java:210-228 | a stored list decodes element by element; it fails iff some element is neither a document nor null; a non-instantiable element class gives an empty list |
| BeanCodecEncode.EncodeKeys | src/main/java/top/newleaf/mongo/codec/BeanCodec.java:70-77 | the encoded document has distinct keys, each the column of a non-transient declared field |
| BeanCodecEncode.EncodeOmitsId | src/main/java/top/newleaf/mongo/codec/BeanCodec.java:113-115 | encoding a non-null object never writes the `_id` column |
| BeanCodecEncode.ColumnWriteNotId | src/main/java/top/newleaf/mongo/codec/BeanCodec.java:95-115 | a write for a non-null object comes from a non-transient field whose column is not `_id` |
| BeanCodecEncode.EncodeNullObject | src/main/java/top/newleaf/mongo/codec/BeanCodec.java:104-105 | a null object encodes to an explicit null under every non-transient column, `_id` included |
| BeanCodecEncode.EncodeWritesField | src/main/java/top/newleaf/mongo/codec/BeanCodec.java:91-121 | with distinct columns, each non-transient field's column holds exactly what setColumn computed for that field |
| BeanCodecEncode.EncodeValueShape | src/main/java/top/newleaf/mongo/codec/BeanCodec.java:174-203 | null and non-custom values pass unchanged; a custom list becomes a list of documents; a custom object becomes one document |
| BeanCodecEncode.ObjectIdEncodesEmpty | src/main/java/top/newleaf/mongo/codec/BeanCodec.java:193-200 | an ObjectId held by an ObjectId-typed field is written as an empty Document, since the schema gives ObjectId no fields or getters (see Left out) |
| BeanCodecDecode.SetFieldLocal | src/main/java/top/newleaf/mongo/codec/BeanCodec.java:130-165 | setField changes at most its own field's slot, and what it writes does not depend on other slots |
| BeanCodecDecode.DecodeFieldsSlot | src/main/java/top/newleaf/mongo/codec/BeanCodec.java:53-62 | after the field loop each field's slot is what setField alone gives it; other slots are untouched |
| BeanCodecDecode.DecodeSkipsTransient | src/main/java/top/newleaf/mongo/codec/BeanCodec.java:134 | a @Transient field is never assigned |
| BeanCodecDecode.DecodeReadsOwnColumn | src/main/java/top/newleaf/mongo/codec/BeanCodec.java:136-153 | a field's decoded value depends on nothing in the document but its own column |
| BeanCodecDecode.DecodeId | src/main/java/top/newleaf/mongo/codec/BeanCodec.java:145-146 | a String field on `_id` receives the ObjectId's hex string; without an ObjectId there the field is left alone |
| BeanCodecDecode.DecodeKeepsDefault | src/main/java/top/newleaf/mongo/codec/BeanCodec.java:148-155 | a field whose type setGenericField passes through (primitive, boxed, or a List of a non-custom element) keeps its non-null default when its column is null or absent |
| BeanCodecDecode.PassThroughKept | src/main/java/top/newleaf/mongo/codec/BeanCodec.java:205-241 | setGenericField, and the fallback to the default, hand a value of a primitive, boxed or List-of-non-custom type back as it is |
| BeanCodecDecode.CustomDefaultReplaced | src/main/java/top/newleaf/mongo/codec/BeanCodec.java:148-155 | a non-null default of a custom type is not kept: with its column null or absent, the field receives a freshly constructed instance |
| BeanCodecDecode.DecodeStoredScalar | src/main/java/top/newleaf/mongo/codec/BeanCodec.java:149-160 | a stored non-null value of a primitive, boxed or List-of-non-custom field is assigned, widened for a primitive field, exactly when Method.invoke accepts it (the Map classes told apart, an ObjectId accepted by an ObjectId setter); otherwise the field keeps its value |
| BeanCodecDecode.NumberClassesDiffer | src/main/java/top/newleaf/mongo/codec/BeanCodec.java:158-160 | a stored Integer is rejected by a Long setter and leaves the field alone, while a primitive long setter takes it widened to a long |
| BeanCodecDecode.MapClassesDiffer | src/main/java/top/newleaf/mongo/codec/BeanCodec.java:158-160 | a stored Document is taken by a setter declared Map or Document, and rejected by one declared HashMap, which leaves the field alone |
| BeanCodecDecode.DecodeResult | src/main/java/top/newleaf/mongo/codec/BeanCodec.java:53-67 | decode returns null exactly when the class cannot be instantiated; otherwise an instance of that class with the declared slots |
| BeanCodecDecode.FallbackAgrees | src/main/java/top/newleaf/mongo/codec/BeanCodec.java:205-242 | on defaults that hold no document in a custom position, the non-recursive default path computes what setGenericField does |
| BeanCodecRoundTrip.ValueRoundTrip | src/main/java/top/newleaf/mongo/codec/BeanCodec.java:174-242 | setGenericField undoes setGenericColumn on every carried value, nested objects and lists included, and null encodes to null only |
| BeanCodecRoundTrip.BeanRoundTrip | src/main/java/top/newleaf/mongo/codec/BeanCodec.java:53-77 | decode(encode(x)) == x for every carried bean |
| BeanCodecRoundTrip.FieldRoundTrip | src/main/java/top/newleaf/mongo/codec/BeanCodec.java:91-165 | each field of a carried bean decodes from the bean's encoding to its original value |
| LegacyCodec.EncodeAgrees | src/main/java/org/mongo/spring/boot/autoconfigure/BeanCodec.java:77-101 | on a non-null object of a class whose fields are all primitive, boxed, or lists of such types, the flat encoder writes what the nested one writes |
| LegacyCodec.DecodeAgrees | src/main/java/org/mongo/spring/boot/autoconfigure/BeanCodec.java:109-143 | on classes whose fields are all primitive, boxed, or lists of such types, the flat decoder fills every field as the nested one does |
| LegacyCodec.EncodeWritesField | src/main/java/org/mongo/spring/boot/autoconfigure/BeanCodec.java:77-101 | for any field type, a readable non-transient, non-`_id` field's getter value sits unchanged under its column, and `_id` is never written |
| LegacyCodec.NoNestedConversion | src/main/java/org/mongo/spring/boot/autoconfigure/BeanCodec.java:90-95 | a non-null custom-typed value is written as the object itself, where the nested codec writes the Document of its fields |
| LegacyCodec.EncodeAsStored | src/main/java/org/mongo/spring/boot/autoconfigure/BeanCodec.java:77-101 | on an object, the flat encoder writes what the nested encoder writes for the same fields with every type taken as one it passes through: the flat codec is the nested one without conversion |
| LegacyCodec.RoundTrip | src/main/java/org/mongo/spring/boot/autoconfigure/BeanCodec.java:42-65 | decode(encode(x)) == x for every carried bean of a class whose fields are all primitive, boxed, or lists of such types |
| LegacyCodec.DecodeKeepsDefault | src/main/java/org/mongo/spring/boot/autoconfigure/BeanCodec.java:127-132 | a non-null current value survives a null or absent column, whatever the field's type |
| LegacyCodec.DecodeStoredValue | src/main/java/org/mongo/spring/boot/autoconfigure/BeanCodec.java:127-138 | a non-null stored value is assigned, widened for a primitive field, exactly when Method.invoke accepts it (the Map classes told apart, an ObjectId accepted by an ObjectId setter); otherwise the field keeps its value |
| LegacyCodec.ObjectIdStored | src/main/java/org/mongo/spring/boot/autoconfigure/BeanCodec.java:127-136 | an ObjectId stored under an ordinary column is assigned, unchanged, to a field declared ObjectId |
| Strings.IndexOf | src/main/java/top/newleaf/mongo/scanner/ClassScanner.java:76 | the first position of the character, or -1 exactly when it does not occur |
| Strings.LastIndexOf | src/main/java/top/newleaf/mongo/scanner/ClassScanner.java:98 | the last position of the character, or -1 exactly when it does not occur |
| Strings.Replace | src/main/java/top/newleaf/mongo/scanner/ClassScanner.java:26 | every occurrence of one character becomes the other; all else is kept |
| Scanner.GetClassNameSpec | src/main/java/top/newleaf/mongo/scanner/ClassScanner.java:97-108 | no class name iff the file name has no '.'; "X.class" in package p gives "p.X" |
| Scanner.ScanDirFlat | src/main/java/top/newleaf/mongo/scanner/ClassScanner.java:45-63 | a non-recursive directory scan reports exactly the top-level .class files, in listing order, as package-qualified names |
| Scanner.ScanDirReports | src/main/java/top/newleaf/mongo/scanner/ClassScanner.java:45-63 | a recursive directory scan reports one name per .class file in the tree, each starting with the package and '.' |
| Scanner.ScanJar | src/main/java/top/newleaf/mongo/scanner/ClassScanner.java:65-95 | a name is reported iff some non-directory .class entry yields it and passes the package filter |
| Scanner.NonRecursiveJarSubset | src/main/java/top/newleaf/mongo/scanner/ClassScanner.java:77-92 | every name the exact-package filter admits is admitted by the recursive filter |
| Scanner.PrefixFilterQuirk | src/main/java/top/newleaf/mongo/scanner/ClassScanner.java:77-80 | recursively, package "a.b" admits "a.bc.X"; the exact-package filter does not |
| Scanner.JarClassNameInverse | src/main/java/top/newleaf/mongo/scanner/ClassScanner.java:75-76 | the class name derived from a class's resource path plus ".class" is the class itself |
| Scanner.Scan | src/main/java/top/newleaf/mongo/scanner/ClassScanner.java:23-43 | a null or empty package set reports nothing |
| Scanner.ScanAppend | src/main/java/top/newleaf/mongo/scanner/ClassScanner.java:23-43 | the scan of a package sequence is the concatenation of the per-package scans, in iteration order |
| Scanner.ScanReports | src/main/java/top/newleaf/mongo/scanner/ClassScanner.java:23-43 | a name is reported iff the scan of some package reports it |
| ScanAction.DoAction | src/main/java/top/newleaf/mongo/scanner/BeanCodecScanAction.java:22-33 | one instance is added iff the class loads, is a CollectibleCodec other than BeanCodec and instantiates; otherwise nothing changes |
| ScanAction.CodecsAmong | src/main/java/top/newleaf/mongo/scanner/BeanCodecScanAction.java:26 | the reported names that are codec classes, and nothing else |
| ScanAction.DoActionsAdds | src/main/java/top/newleaf/mongo/scanner/BeanCodecScanAction.java:20-33 | after a scan the codec set is the old set plus one instance per reported codec name, duplicates included |
| ScanAction.ScannedTwice | src/main/java/top/newleaf/mongo/scanner/BeanCodecScanAction.java:20-27 | a codec class reported twice holds two instances in the set |
| ScanAction.AddCodec | src/main/java/org/mongo/spring/boot/autoconfigure/MongoFactory.java:206-212 | addCodec throws iff the class is missing or is a starter codec that cannot be instantiated, with the matching exception; otherwise it adds exactly the starter codecs |
| ScanAction.SpringCodecsAmong | src/main/java/org/mongo/spring/boot/autoconfigure/MongoFactory.java:208 | the reported names that are starter codec classes, and nothing else |
| ScanAction.AddCodecsComplete | src/main/java/org/mongo/spring/boot/autoconfigure/MongoFactory.java:103-143 | with no rejected name the scan completes and adds one instance per starter codec name |
| ScanAction.AddCodecsStops | src/main/java/org/mongo/spring/boot/autoconfigure/MongoFactory.java:103-143 | the first rejected name ends the scan with its exception, keeping the codecs added before it |
| ScanAction.AddCodecsFailsIff | src/main/java/org/mongo/spring/boot/autoconfigure/MongoFactory.java:103-143 | the scan fails iff some reported name is rejected |
| Tables.CollectionName | src/main/java/top/newleaf/mongo/factory/MongoFactory.java:59-73 | succeeds iff cached or annotated with a non-empty name; a failure is IllegalArgument and caches nothing; a success is cached; existing entries are kept |
| Tables.CollectionNameSound | src/main/java/top/newleaf/mongo/factory/MongoFactory.java:59-73 | with a valid cache, the answer is the class's non-empty @Table name and the cache stays valid |
| Tables.CollectionNameIdempotent | src/main/java/top/newleaf/mongo/factory/MongoFactory.java:59-73 | a second lookup gives the same answer and the same cache |
| Tables.CachedNameWins | src/main/java/top/newleaf/mongo/factory/MongoFactory.java:61-62 | a cached name is served even after the annotation changes |
| Factory.ConfigPath | src/main/java/top/newleaf/mongo/factory/MongoFactory.java:137-150 | a null or empty path means the class-path mongo.xml; a given path is kept as a prefix and ends with mongo.xml |
| Factory.ConfigPathIdempotent | src/main/java/top/newleaf/mongo/factory/MongoFactory.java:146-148 | resolving a resolved path changes nothing |
| Factory.ConfigPathSeparator | src/main/java/top/newleaf/mongo/factory/MongoFactory.java:146-148 | a directory with or without a trailing '/' resolves to the same file, with exactly one '/' |
| Factory.ParseBoolean | src/main/java/top/newleaf/mongo/factory/MongoFactory.java:171 | true exactly for a four-letter text whose every letter is the lower- or upper-case letter of "true" at that position |
| Factory.ParseBooleanExamples | src/main/java/top/newleaf/mongo/factory/MongoFactory.java:171 | "tRuE" is true; "false", "yes" and "truee" are false |
| Factory.ParseConnection | src/main/java/top/newleaf/mongo/factory/MongoFactory.java:165-173 | a connection element parses iff it has uri, db and name; these are copied; a missing isDefault means false |
| Factory.ParseConnections | src/main/java/top/newleaf/mongo/factory/MongoFactory.java:160-177 | all elements parse, in order, or parsing fails iff one of them does |
| Factory.CreateConnections | src/main/java/top/newleaf/mongo/factory/MongoFactory.java:108-131 | sets hasInit iff it was set or connections are given; with hasInit already set or no connections nothing changes |
| Factory.RegisterAllSpec | src/main/java/top/newleaf/mongo/factory/MongoFactory.java:113-127 | each name maps to the database of its last connection, other names keep theirs, the default is the last connection marked default |
| Factory.LastNamedIn | src/main/java/top/newleaf/mongo/factory/MongoFactory.java:123 | a name has a registered connection iff some connection carries it, and the chosen one carries it |
| Factory.CreateConnectionsOnce | src/main/java/top/newleaf/mongo/factory/MongoFactory.java:109-112 | after a call with connections, every later call leaves the state as it is |
| Factory.Distinct | src/main/java/top/newleaf/mongo/factory/MongoFactory.java:84-89 | the package set holds the same names, each once |
| Factory.Init | src/main/java/top/newleaf/mongo/factory/MongoFactory.java:79-101 | with hasInit set nothing changes; the cache is never touched; a change happens only on the first successful init |
| Factory.InitRegisters | src/main/java/top/newleaf/mongo/factory/MongoFactory.java:79-101 | a found configuration with readable connections registers each named connection with one instance per scanned codec class |
| SpringFactory.DbNameFromUri | src/main/java/org/mongo/spring/boot/autoconfigure/MongoFactory.java:76-79 | the as-written extraction throws StringIndexOutOfBounds iff there is no '?' or it precedes the last '/'; a result holds no '/' or '?' |
| SpringFactory.DbNameWithoutOptionsFails | src/main/java/org/mongo/spring/boot/autoconfigure/MongoFactory.java:78 | "mongodb://h/test" makes the as-written extraction throw, while "mongodb://h/test?w=1" yields "test" |
| SpringFactory.DbNameFromUriFixed | src/main/java/org/mongo/spring/boot/autoconfigure/MongoFactory.java:76-79 | the corrected name is a '/'- and '?'-free segment that follows a '/' or starts the uri and ends at the first '?' or at the end |
| SpringFactory.DbNameFixAgrees | src/main/java/org/mongo/spring/boot/autoconfigure/MongoFactory.java:78 | wherever the as-written extraction succeeds, the corrected one gives the same name |
| SpringFactory.DbNameFixedExample | src/main/java/org/mongo/spring/boot/autoconfigure/MongoFactory.java:78 | on "mongodb://h/test" the as-written extraction fails and the corrected one yields "test" |
| SpringFactory.Init | src/main/java/org/mongo/spring/boot/autoconfigure/MongoFactory.java:70-95 | a null uri or package changes nothing; codecs only grow; a new database has the given uri, the codec set, and the name property when given |
| SpringFactory.AddCodecsGrow | src/main/java/org/mongo/spring/boot/autoconfigure/MongoFactory.java:206-212 | the starter's scan never removes a codec |
| SpringFactory.InitConnects | src/main/java/org/mongo/spring/boot/autoconfigure/MongoFactory.java:70-95 | with a name property, or a uri the as-written extraction can cut, and every scanned name accepted, init opens the database named by the property or by the uri text between the last '/' and the '?', with one instance per starter codec class |
| SpringFactory.InitFailsOnRejectedCodec | src/main/java/org/mongo/spring/boot/autoconfigure/MongoFactory.java:82 | a rejected codec class leaves the factory without a database |
| SpringFactory.CollectionOf | src/main/java/org/mongo/spring/boot/autoconfigure/MongoFactory.java:47-53 | the name lookup comes first (IllegalArgument even without a database), then NullPointer without a database; the cache update is kept |

## Left out

- Reflection is replaced by the schema. The schema covers declared fields, their annotations and types, getter and setter names, and `newInstance` success. Subclass instances, and getters or setters that themselves throw, are not modelled.
- `getTClass` (reading the generic superclass) is not modelled. `BeanCodec.Encode` and `LegacyCodec.Encode` take the class as given. The source's `encode` reads `tClass` directly, so it throws NullPointerException until `decode` or `getEncoderClass` has run. The driver calls `getEncoderClass` when it registers a codec.
- `generateIdIfAbsentFromDocument`, `documentHasId` and `getDocumentId` return constants (the object, false, null). They hold no logic to model.
- BSON reading and writing by `DocumentCodec` is left out. The document is the ordered entry list itself. ObjectIds are opaque hex strings, and ObjectId generation is left out.
- BeanCodecEncode.ObjectIdEncodesEmpty: an ObjectId value has no fields or getters in the model, so the nested codec writes an ObjectId-typed field holding one as an empty Document. The source writes one entry per declared field of ObjectId that has a public getter (for example `timestamp`), and ObjectId's own fields are not modelled.
- List fields are modelled with one element class. Raw `List` fields and nested parameterized types are not: `getActualTypeArguments()[0]` would throw or see a type that is not a class.
- BeanCodec.DecodeFallback: the fallback to the field's default is not recursive. Under Java typing a default never holds a Document where a custom object is expected, and on such defaults `BeanCodecDecode.FallbackAgrees` proves it equal to the recursive path.
- Schema.Fits: Map classes are told apart by name. A Map class outside `java.util` and `org.bson` is taken to be assignable only to itself and to `java.util.Map`: the superclasses of a user-defined Map class are not known to the schema.
- Schema.Assigned: a number widened for a primitive parameter keeps its text, so the precision that an int-to-float or long-to-double widening can lose is not modelled. `char` parameters and their widening are not modelled.
- Case conversion (`Naming.ToLower`, `Naming.ToUpper`, `Factory.EqualsIgnoreCase`) covers ASCII letters only.
- Tables.CollectionName: the IllegalArgumentException message is reduced to the class name. The source appends a fixed phrase.
- Class loading is modelled as given tables:
  - `getResources` becomes a map from resource path to directory trees and jar entry lists;
  - `Class.forName`, `isAssignableFrom` and `newInstance` become a map of facts per class name;
  - I/O failures of the loader, of `listFiles` and of opening a jar are not modelled;
  - a directory whose listing is null is an empty tree.
- The `mongo.xml` parser (dom4j) and XPath selection are left out. The configuration is given as parsed package texts and connection elements.
- The newleaf package set is a `HashSet`. The model enumerates it in first-occurrence order (`Factory.Distinct`), because Java's iteration order is unspecified.
- The MongoDB driver is not modelled:
  - `MongoClientURI`, `MongoClient` and `getDatabase` are assumed to succeed;
  - a database is recorded as the uri, name and codec classes it is built from;
  - registry composition with the driver's default codecs is implied by an empty codec set.
- Concurrency is not modelled: `synchronized`, `ConcurrentHashMap`, and the static, shared `dbs` map. The model is sequential.
- Logging and `printStackTrace` output are not modelled.
- The trivial accessors (`getInstance`, `getDb`, `getDbs`, `getHasInit`, `getCodecSet`) are fields of the state records and are not modelled separately.
- Spring wiring (`MongoAutoConfiguration`, `MongoProperties`, `@EnableMongoCodec`) only passes the three properties to `init`, so it is not modelled.
- SpringFactory.Init: derives a missing database name with the corrected extraction `SpringFactory.DbNameFromUriFixed`, not the as-written one (see Findings). As written, a uri without `?` (or with a `?` before the last `/`) makes `init` throw at the extraction, before the codec package is scanned: no codec is added and the factory has no database. `SpringFactory.InitConnects` states its result only where the as-written extraction succeeds, where the two agree.

## Findings

| source | as written | input that shows it | evidently intended | confidence | as-written member | corrected member |
|---|---|---|---|---|---|---|
| src/main/java/org/mongo/spring/boot/autoconfigure/MongoFactory.java:78 | with no `name` property, the database name is `uri.substring(uri.lastIndexOf("/") + 1, uri.indexOf("?"))` | `mongodb://h/test` has no `?`, so the end index is -1 and `substring` throws StringIndexOutOfBoundsException. `init` catches it and leaves the database null. The same happens when a `?` comes before the last `/`. | the segment after the last `/` that precedes the options, ending at the first `?` or at the end of the uri | high (not executed) | SpringFactory.DbNameFromUri, SpringFactory.DbNameWithoutOptionsFails | SpringFactory.DbNameFromUriFixed, SpringFactory.DbNameFixAgrees |

=== FILE: bean_codec.dfy ===
/** The nested bean codec (package top.newleaf.mongo.codec): encode walks the
    declared fields of the target class into a Document, decode fills a fresh
    instance from a Document; both recurse into custom-typed fields and into
    lists of a custom element type. Every per-field failure is swallowed:
    the field is simply not written (encode) or keeps its default (decode). */
module BeanCodec {
  import opened Results
  import opened Documents
  import opened Schema

  // ---------------------------------------------------------------- encode

  /** setGenericColumn: None when it throws. Null and non-custom types pass
      through; a custom object becomes a Document; a list whose element type is
      custom becomes a list of Documents. */
  function EncodeValue(reg: Registry, t: JType, v: Value): (r: Option<Value>)
    decreases v, 4
  {
    if v.Null? then Some(Null)
    else match t
      case ListOf(e) =>
        if !IsGenericType(e) then Some(v)
        else if e.ListOf? then None          // the type argument is not a Class
        else if !v.Arr? then None            // the value is not a List
        else Some(Arr(EncodeList(reg, ClassOf(reg, e.cls).fields, v, 0)))
      case Custom(c) =>
        var fields := ClassOf(reg, c).fields;
        Some(Doc(EncodeFields(reg, fields, v, |fields|)))
      case _ => Some(v)
  }

  /** The elements from index `i` on, each encoded against the element class's
      declared fields into a new Document. */
  function EncodeList(reg: Registry, fields: seq<Field>, v: Value, i: nat): (r: seq<Value>)
    requires v.Arr? && i <= |v.items|
    ensures |r| == |v.items| - i
    ensures forall k :: 0 <= k < |r| ==> r[k] == Doc(EncodeFields(reg, fields, v.items[i + k], |fields|))
    decreases v, 3, |v.items| - i
  {
    if i == |v.items| then []
    else [Doc(EncodeFields(reg, fields, v.items[i], |fields|))] + EncodeList(reg, fields, v, i + 1)
  }

  /** The document after setColumn has run for the first `n` declared fields. */
  function EncodeFields(reg: Registry, fields: seq<Field>, obj: Value, n: nat): (d: seq<Entry>)
    requires n <= |fields|
    decreases obj, 2, n
  {
    if n == 0 then []
    else SetColumn(reg, fields[n - 1], obj, EncodeFields(reg, fields, obj, n - 1))
  }

  /** What setColumn puts for one field, None when it puts nothing: a
      transient field is skipped; for a null object the column is set to null;
      otherwise the getter's value, converted, unless the column is `_id`. A
      missing getter or a failing conversion puts nothing. */
  function ColumnWrite(reg: Registry, f: Field, obj: Value): (r: Option<Value>)
    decreases obj, 0
  {
    if f.transient then None
    else
      match obj
      case Null => Some(Null)
      case Obj(c, slots) =>
        if HasGetter(reg, c, f) && f.name in slots then
          (match EncodeValue(reg, f.ftype, slots[f.name])
           case None => None
           case Some(w) => if ColumnOf(f) == IdColumn then None else Some(w))
        else None
      case _ => None                         // no such getter on this class
  }

  /** setColumn: document.put under the field's column. */
  function SetColumn(reg: Registry, f: Field, obj: Value, doc: seq<Entry>): (r: seq<Entry>)
    decreases obj, 1
  {
    match ColumnWrite(reg, f, obj)
    case None => doc
    case Some(w) => Put(doc, ColumnOf(f), w)
  }

  /** encode: the document written for an instance of class `c`. */
  function Encode(reg: Registry, c: string, obj: Value): seq<Entry> {
    EncodeFields(reg, ClassOf(reg, c).fields, obj, |ClassOf(reg, c).fields|)
  }

  // ---------------------------------------------------------------- decode

  /** setGenericField for a value read from the document: None when it
      throws. A custom-typed value becomes a fresh instance filled from the
      Document (a fresh instance as it is when the value is not a Document,
      the value itself when the class cannot be instantiated); a list of a
      custom element type becomes a list of fresh instances. */
  function DecodeStored(reg: Registry, t: JType, v: Value): (r: Option<Value>)
    decreases v, 3
  {
    if v.Null? then Some(Null)
    else match t
      case ListOf(e) =>
        if !IsGenericType(e) then Some(v)
        else if e.ListOf? then None
        else if !v.Arr? then None
        else
          (match DecodeList(reg, e.cls, v, 0)
           case None => None
           case Some(xs) => Some(Arr(xs)))
      case Custom(c) =>
        var cd := ClassOf(reg, c);
        if !cd.instantiable then Some(v)
        else if v.Doc? then Some(DecodeFields(reg, cd.fields, v.entries, Fresh(reg, c), |cd.fields|))
        else Some(Fresh(reg, c))
      case _ => Some(v)
  }

  /** One element of a list of a custom type, once instantiated: a Document
      fills the fresh instance; a null element leaves it as constructed, since
      every field then fails on the null document. */
  function DecodeElement(reg: Registry, c: string, x: Value): Value
    decreases x, 3
  {
    var cd := ClassOf(reg, c);
    if x.Doc? then DecodeFields(reg, cd.fields, x.entries, Fresh(reg, c), |cd.fields|) else Fresh(reg, c)
  }

  /** The list elements from index `i` on, decoded in order. An element that
      is neither a Document nor null makes the whole conversion throw; when the
      element class cannot be instantiated every element is dropped. */
  function DecodeList(reg: Registry, c: string, v: Value, i: nat): (r: Option<seq<Value>>)
    requires v.Arr? && i <= |v.items|
    ensures r.None? <==> exists k :: i <= k < |v.items| && !v.items[k].Doc? && !v.items[k].Null?
    ensures r.Some? && !ClassOf(reg, c).instantiable ==> r.value == []
    ensures r.Some? && ClassOf(reg, c).instantiable ==>
      && |r.value| == |v.items| - i
      && forall k :: 0 <= k < |r.value| ==> r.value[k] == DecodeElement(reg, c, v.items[i + k])
    decreases v, 2, |v.items| - i
  {
    if i == |v.items| then Some([])
    else
      var x := v.items[i];
      if !x.Doc? && !x.Null? then None
      else
        match DecodeList(reg, c, v, i + 1)
        case None => None
        case Some(rest) =>
          if !ClassOf(reg, c).instantiable then Some(rest)
          else Some([DecodeElement(reg, c, x)] + rest)
  }

  /** setGenericField for the fallback default. A field's default never holds
      a Document where a custom object is expected (Java's typing rules it
      out), so this path never recurses: see FallbackAgrees. */
  function DecodeFallback(reg: Registry, t: JType, v: Value): (r: Option<Value>) {
    if v.Null? then Some(Null)
    else match t
      case ListOf(e) =>
        if !IsGenericType(e) then Some(v)
        else if e.ListOf? then None
        else if !v.Arr? then None
        else if exists i :: 0 <= i < |v.items| && !v.items[i].Null? then None
        else if !ClassOf(reg, e.cls).instantiable then Some(Arr([]))
        else Some(Arr(seq(|v.items|, _ => Fresh(reg, e.cls))))
      case Custom(c) =>
        if !ClassOf(reg, c).instantiable then Some(v) else Some(Fresh(reg, c))
      case _ => Some(v)
  }

  /** field.get(obj): the current value of the field. */
  function Current(obj: Value, f: Field): Value {
    if obj.Obj? && f.name in obj.slots then obj.slots[f.name] else Null
  }

  /** The instance after setField has run for the first `n` declared fields. */
  function DecodeFields(reg: Registry, fields: seq<Field>, d: seq<Entry>, obj: Value, n: nat): (r: Value)
    requires n <= |fields|
    decreases d, 2, n
  {
    if n == 0 then obj
    else SetField(reg, fields[n - 1], d, DecodeFields(reg, fields, d, obj, n - 1))
  }

  /** The value setField computes for a field before the setter is called;
      None when anything throws. */
  function FieldValue(reg: Registry, f: Field, d: seq<Entry>, obj: Value): (r: Option<Value>)
    decreases d, 0
  {
    var col := ColumnOf(f);
    if col == IdColumn then
      match Lookup(d, IdColumn)
      case Some(Oid(h)) => DecodeFallback(reg, f.ftype, Atom(StringK, h))
      case _ => None                          // getObjectId(...).toString() throws
    else
      var dflt := Current(obj, f);
      match Lookup(d, col)
      case Some(stored) =>
        if stored.Null? && !dflt.Null? then DecodeFallback(reg, f.ftype, dflt)
        else DecodeStored(reg, f.ftype, stored)
      case None =>
        if !dflt.Null? then DecodeFallback(reg, f.ftype, dflt) else Some(Null)
  }

  /** setField: a transient field is skipped; otherwise the computed value is
      passed to the setter, which needs to exist and to accept it. */
  function SetField(reg: Registry, f: Field, d: seq<Entry>, obj: Value): (r: Value)
    decreases d, 1
  {
    if f.transient || !obj.Obj? then obj
    else
      match FieldValue(reg, f, d, obj)
      case None => obj
      case Some(w) =>
        if HasSetter(reg, obj.cls, f) && Fits(w, f.ftype) then Obj(obj.cls, obj.slots[f.name := Assigned(w, f.ftype)]) else obj
  }

  /** decode: None (Java's null) when the class cannot be instantiated,
      otherwise a fresh instance filled field by field. */
  function Decode(reg: Registry, c: string, d: seq<Entry>): Option<Value> {
    var cd := ClassOf(reg, c);
    if !cd.instantiable then None
    else Some(DecodeFields(reg, cd.fields, d, Fresh(reg, c), |cd.fields|))
  }
}

=== FILE: bean_codec_decode.dfy ===
/** What the nested codec reads: each field from its own column only, the
    identifier from `_id`, the default when nothing is stored. */
module BeanCodecDecode {
  import opened Results
  import opened Documents
  import opened Schema
  import opened BeanCodec

  /** setField changes at most the slot of its own field, and the new value
      depends only on that slot (the default) and on the document. */
  lemma SetFieldLocal(reg: Registry, f: Field, d: seq<Entry>, o1: Value, o2: Value)
    requires o1.Obj? && o2.Obj? && o1.cls == o2.cls
    requires f.name in o1.slots && f.name in o2.slots && o1.slots[f.name] == o2.slots[f.name]
    ensures SetField(reg, f, d, o1).Obj? && SetField(reg, f, d, o1).cls == o1.cls
    ensures SetField(reg, f, d, o1).slots.Keys == o1.slots.Keys
    ensures forall nm :: nm in o1.slots && nm != f.name ==> SetField(reg, f, d, o1).slots[nm] == o1.slots[nm]
    ensures SetField(reg, f, d, o1).slots[f.name] == SetField(reg, f, d, o2).slots[f.name]
  {
    assert Current(o1, f) == Current(o2, f);
    assert FieldValue(reg, f, d, o1) == FieldValue(reg, f, d, o2);
  }

  /** Some field among the first `n` is named `nm`. */
  predicate Named(fields: seq<Field>, n: nat, nm: string)
    requires n <= |fields|
  {
    exists j :: 0 <= j < n && fields[j].name == nm
  }

  /** With distinct names, no earlier field shares a field's name. */
  lemma NotNamedBefore(fields: seq<Field>, n: nat)
    requires 0 < n <= |fields| && DistinctNames(fields)
    ensures !Named(fields, n - 1, fields[n - 1].name)
  {
  }

  /** Fields are set independently: after decoding the first `n` declared
      fields, the slot of each of them is what its own setField gives on the
      untouched instance, and every other slot is unchanged. */
  lemma DecodeFieldsSlot(reg: Registry, fields: seq<Field>, d: seq<Entry>, obj: Value, n: nat)
    requires n <= |fields| && DistinctNames(fields) && obj.Obj?
    requires forall j :: 0 <= j < n ==> fields[j].name in obj.slots
    ensures DecodeFields(reg, fields, d, obj, n).Obj? && DecodeFields(reg, fields, d, obj, n).cls == obj.cls
    ensures DecodeFields(reg, fields, d, obj, n).slots.Keys == obj.slots.Keys
    ensures forall j :: 0 <= j < n ==>
      DecodeFields(reg, fields, d, obj, n).slots[fields[j].name] == SetField(reg, fields[j], d, obj).slots[fields[j].name]
    ensures forall nm :: nm in obj.slots && !Named(fields, n, nm) ==>
      DecodeFields(reg, fields, d, obj, n).slots[nm] == obj.slots[nm]
  {
    DecodeFieldsShape(reg, fields, d, obj, n);
    DecodeFieldsOwn(reg, fields, d, obj, n);
  }

  /** Decoding keeps the instance's class and slot names, and touches no
      slot but those of the decoded fields. */
  lemma {:induction false} DecodeFieldsShape(reg: Registry, fields: seq<Field>, d: seq<Entry>, obj: Value, n: nat)
    requires n <= |fields| && obj.Obj?
    requires forall j :: 0 <= j < n ==> fields[j].name in obj.slots
    ensures DecodeFields(reg, fields, d, obj, n).Obj? && DecodeFields(reg, fields, d, obj, n).cls == obj.cls
    ensures DecodeFields(reg, fields, d, obj, n).slots.Keys == obj.slots.Keys
    ensures forall nm :: nm in obj.slots && !Named(fields, n, nm) ==>
      DecodeFields(reg, fields, d, obj, n).slots[nm] == obj.slots[nm]
  {
    if n > 0 {
      DecodeFieldsShape(reg, fields, d, obj, n - 1);
      var prev := DecodeFields(reg, fields, d, obj, n - 1);
      SetFieldLocal(reg, fields[n - 1], d, prev, prev);
    }
  }

  /** The slot of each decoded field is what its own setField gives. */
  lemma DecodeFieldsOwn(reg: Registry, fields: seq<Field>, d: seq<Entry>, obj: Value, n: nat)
    requires n <= |fields| && DistinctNames(fields) && obj.Obj?
    requires forall j :: 0 <= j < n ==> fields[j].name in obj.slots
    ensures DecodeFields(reg, fields, d, obj, n).Obj? && DecodeFields(reg, fields, d, obj, n).slots.Keys == obj.slots.Keys
    ensures forall j :: 0 <= j < n ==>
      DecodeFields(reg, fields, d, obj, n).slots[fields[j].name] == SetField(reg, fields[j], d, obj).slots[fields[j].name]
  {
    DecodeFieldsShape(reg, fields, d, obj, n);
    forall j | 0 <= j < n
      ensures DecodeFields(reg, fields, d, obj, n).slots[fields[j].name] == SetField(reg, fields[j], d, obj).slots[fields[j].name]
    {
      DecodeFieldsOwnAt(reg, fields, d, obj, n, j);
    }
  }

  lemma {:induction false} DecodeFieldsOwnAt(reg: Registry, fields: seq<Field>, d: seq<Entry>, obj: Value, n: nat, j: nat)
    requires j < n <= |fields| && DistinctNames(fields) && obj.Obj?
    requires forall i :: 0 <= i < n ==> fields[i].name in obj.slots
    ensures DecodeFields(reg, fields, d, obj, n).Obj? && fields[j].name in DecodeFields(reg, fields, d, obj, n).slots
    ensures DecodeFields(reg, fields, d, obj, n).slots[fields[j].name] == SetField(reg, fields[j], d, obj).slots[fields[j].name]
  {
    if j == n - 1 {
      LastFieldSet(reg, fields, d, obj, n);
    } else {
      DecodeFieldsOwnAt(reg, fields, d, obj, n - 1, j);
      SetFieldKept(reg, fields, d, obj, n, j);
    }
  }

  /** The last field decoded so far holds what its setField alone gives. */
  lemma LastFieldSet(reg: Registry, fields: seq<Field>, d: seq<Entry>, obj: Value, n: nat)
    requires 0 < n <= |fields| && DistinctNames(fields) && obj.Obj?
    requires forall i :: 0 <= i < n ==> fields[i].name in obj.slots
    ensures DecodeFields(reg, fields, d, obj, n).Obj? && fields[n - 1].name in DecodeFields(reg, fields, d, obj, n).slots
    ensures DecodeFields(reg, fields, d, obj, n).slots[fields[n - 1].name] == SetField(reg, fields[n - 1], d, obj).slots[fields[n - 1].name]
  {
    DecodeFieldsShape(reg, fields, d, obj, n - 1);
    NotNamedBefore(fields, n);
    SetFieldLocal(reg, fields[n - 1], d, DecodeFields(reg, fields, d, obj, n - 1), obj);
  }

  /** A later setField leaves an earlier field's slot as it was. */
  lemma SetFieldKept(reg: Registry, fields: seq<Field>, d: seq<Entry>, obj: Value, n: nat, j: nat)
    requires j < n - 1 && n <= |fields| && DistinctNames(fields) && obj.Obj?
    requires forall i :: 0 <= i < n ==> fields[i].name in obj.slots
    requires DecodeFields(reg, fields, d, obj, n - 1).Obj? && fields[j].name in DecodeFields(reg, fields, d, obj, n - 1).slots
    ensures DecodeFields(reg, fields, d, obj, n).Obj? && fields[j].name in DecodeFields(reg, fields, d, obj, n).slots
    ensures DecodeFields(reg, fields, d, obj, n).slots[fields[j].name] == DecodeFields(reg, fields, d, obj, n - 1).slots[fields[j].name]
  {
    var prev := DecodeFields(reg, fields, d, obj, n - 1);
    DecodeFieldsShape(reg, fields, d, obj, n - 1);
    assert fields[j].name != fields[n - 1].name;
    SetFieldLocal(reg, fields[n - 1], d, prev, prev);
  }

  /** A @Transient field is never assigned. */
  lemma DecodeSkipsTransient(reg: Registry, f: Field, d: seq<Entry>, obj: Value)
    requires f.transient
    ensures SetField(reg, f, d, obj) == obj
  {
  }

  /** setField reads nothing but the field's own column (the @Column name
      when given, the snake-case name otherwise): two documents that agree on
      that column decode the field alike. */
  lemma DecodeReadsOwnColumn(reg: Registry, f: Field, d1: seq<Entry>, d2: seq<Entry>, obj: Value)
    requires Lookup(d1, ColumnOf(f)) == Lookup(d2, ColumnOf(f))
    ensures SetField(reg, f, d1, obj) == SetField(reg, f, d2, obj)
  {
    assert FieldValue(reg, f, d1, obj) == FieldValue(reg, f, d2, obj);
  }

  /** A String field stored under `_id` receives the string form of the
      document's ObjectId; when `_id` is missing or is not an ObjectId only
      this field fails and the instance is left as it was. */
  lemma DecodeId(reg: Registry, f: Field, d: seq<Entry>, obj: Value)
    requires !f.transient && ColumnOf(f) == IdColumn && f.ftype == Boxed(StringK)
    requires obj.Obj? && HasSetter(reg, obj.cls, f)
    ensures Lookup(d, IdColumn).Some? && Lookup(d, IdColumn).value.Oid? ==>
      SetField(reg, f, d, obj) == Obj(obj.cls, obj.slots[f.name := Atom(StringK, Lookup(d, IdColumn).value.hex)])
    ensures !(Lookup(d, IdColumn).Some? && Lookup(d, IdColumn).value.Oid?) ==> SetField(reg, f, d, obj) == obj
  {
  }

  /** A pass-through type is decoded, on either path, as the value itself. */
  lemma PassThroughKept(reg: Registry, t: JType, v: Value)
    requires PassThrough(t)
    ensures DecodeStored(reg, t, v) == Some(v) && DecodeFallback(reg, t, v) == Some(v)
  {
  }

  /** When the stored value is null or absent and the field's current value
      (the freshly constructed default) is non-null, a field whose type is
      stored as it is keeps that default. */
  lemma DecodeKeepsDefault(reg: Registry, f: Field, d: seq<Entry>, obj: Value)
    requires !f.transient && ColumnOf(f) != IdColumn && PassThrough(f.ftype)
    requires obj.Obj? && f.name in obj.slots && !obj.slots[f.name].Null? && Native(obj.slots[f.name], f.ftype)
    requires Get(d, ColumnOf(f)).Null?
    ensures SetField(reg, f, d, obj) == obj
  {
    var w := obj.slots[f.name];
    assert FieldValue(reg, f, d, obj) == Some(w);
    if HasSetter(reg, obj.cls, f) && Fits(w, f.ftype) {
      assert obj.slots[f.name := Assigned(w, f.ftype)] == obj.slots;
    }
  }

  /** Where the default is not kept: a non-null default of a custom type is
      replaced, when its column is null or absent, by a freshly constructed
      instance, because setGenericField instantiates the class before it
      reads the (missing) Document. */
  lemma CustomDefaultReplaced(reg: Registry, f: Field, d: seq<Entry>, obj: Value)
    requires !f.transient && ColumnOf(f) != IdColumn && f.ftype.Custom? && ClassOf(reg, f.ftype.cls).instantiable
    requires obj.Obj? && f.name in obj.slots && !obj.slots[f.name].Null? && HasSetter(reg, obj.cls, f)
    requires Get(d, ColumnOf(f)).Null?
    ensures SetField(reg, f, d, obj) == Obj(obj.cls, obj.slots[f.name := Fresh(reg, f.ftype.cls)])
  {
    assert FieldValue(reg, f, d, obj) == Some(Fresh(reg, f.ftype.cls));
  }

  /** A stored non-null value of a pass-through type reaches the setter
      unchanged: the field receives it, widened to a primitive field's own
      type, exactly when Method.invoke accepts it; otherwise the invocation
      throws and the field keeps its value. */
  lemma DecodeStoredScalar(reg: Registry, f: Field, d: seq<Entry>, obj: Value)
    requires !f.transient && ColumnOf(f) != IdColumn && PassThrough(f.ftype)
    requires obj.Obj? && !Get(d, ColumnOf(f)).Null? && HasSetter(reg, obj.cls, f)
    ensures Fits(Get(d, ColumnOf(f)), f.ftype) ==>
      SetField(reg, f, d, obj) == Obj(obj.cls, obj.slots[f.name := Assigned(Get(d, ColumnOf(f)), f.ftype)])
    ensures !Fits(Get(d, ColumnOf(f)), f.ftype) ==> SetField(reg, f, d, obj) == obj
  {
    var stored := Get(d, ColumnOf(f));
    assert Lookup(d, ColumnOf(f)) == Some(stored);
    assert DecodeStored(reg, f.ftype, stored) == Some(stored);
    assert FieldValue(reg, f, d, obj) == Some(stored);
  }

  /** The number classes are told apart: a stored Integer is rejected by a
      Long setter, leaving the field as it was, while a primitive long setter
      widens it to a long. */
  lemma NumberClassesDiffer(reg: Registry, f: Field, d: seq<Entry>, obj: Value, text: string)
    requires !f.transient && ColumnOf(f) != IdColumn && obj.Obj? && HasSetter(reg, obj.cls, f)
    requires Get(d, ColumnOf(f)) == Atom(NumberK(IntN), text)
    ensures f.ftype == Boxed(NumberK(LongN)) ==> SetField(reg, f, d, obj) == obj
    ensures f.ftype == Primitive(NumberK(LongN)) ==>
      SetField(reg, f, d, obj) == Obj(obj.cls, obj.slots[f.name := Atom(NumberK(LongN), text)])
  {
    if !IsGenericType(f.ftype) {
      DecodeStoredScalar(reg, f, d, obj);
    }
  }

  /** The Map classes are told apart: a stored Document is accepted by a
      setter declared Map or Document and rejected by one declared HashMap,
      which leaves the field as it was. */
  lemma MapClassesDiffer(reg: Registry, f: Field, d: seq<Entry>, obj: Value, entries: seq<Entry>)
    requires !f.transient && ColumnOf(f) != IdColumn && obj.Obj? && HasSetter(reg, obj.cls, f)
    requires Get(d, ColumnOf(f)) == Doc(entries)
    ensures f.ftype == Boxed(MapK("java.util.HashMap")) ==> SetField(reg, f, d, obj) == obj
    ensures f.ftype == Boxed(MapK(JavaMap)) || f.ftype == Boxed(MapK(DocumentClass)) ==>
      SetField(reg, f, d, obj) == Obj(obj.cls, obj.slots[f.name := Doc(entries)])
  {
    if !IsGenericType(f.ftype) {
      DecodeStoredScalar(reg, f, d, obj);
    }
  }

  /** decode yields no instance exactly when the class cannot be
      instantiated; otherwise an instance of that class whose slots are the
      declared fields. */
  lemma DecodeResult(reg: Registry, c: string, d: seq<Entry>)
    requires DistinctNames(ClassOf(reg, c).fields)
    ensures Decode(reg, c, d).None? <==> !ClassOf(reg, c).instantiable
    ensures Decode(reg, c, d).Some? ==>
      Decode(reg, c, d).value.Obj? && Decode(reg, c, d).value.cls == c &&
      Decode(reg, c, d).value.slots.Keys == Defaults(ClassOf(reg, c).fields).Keys
  {
    var fields := ClassOf(reg, c).fields;
    if ClassOf(reg, c).instantiable {
      DecodeFieldsSlot(reg, fields, d, Fresh(reg, c), |fields|);
    }
  }

  /** A value that holds no Document where a custom object is expected: true
      of every default under Java's typing. */
  predicate DocFree(t: JType, v: Value) {
    match t
    case Custom(_) => !v.Doc?
    case ListOf(Custom(_)) => v.Arr? ==> forall i :: 0 <= i < |v.items| ==> !v.items[i].Doc?
    case _ => true
  }

  /** On such values the fallback path computes what setGenericField
      computes. */
  lemma FallbackAgrees(reg: Registry, t: JType, v: Value)
    requires DocFree(t, v)
    ensures DecodeFallback(reg, t, v) == DecodeStored(reg, t, v)
  {
    if t.ListOf? && t.elem.Custom? && v.Arr? {
      var c := t.elem.cls;
      var r := DecodeList(reg, c, v, 0);
      if r.Some? && ClassOf(reg, c).instantiable {
        assert r.value == seq(|v.items|, _ => Fresh(reg, c));
      }
    }
  }
}

=== FILE: bean_codec_encode.dfy ===
/** What the nested codec writes: which keys, under which names, and never
    the identifier. */
module BeanCodecEncode {
  import opened Results
  import opened Documents
  import opened Schema
  import opened BeanCodec

  /** The column written by the non-transient field `fields[j]`, for some `j < n`. */
  predicate WrittenBy(fields: seq<Field>, n: nat, k: string)
    requires n <= |fields|
  {
    exists j :: 0 <= j < n && !fields[j].transient && ColumnOf(fields[j]) == k
  }

  /** A column written among the first `n` fields is written among more. */
  lemma WrittenByGrow(fields: seq<Field>, n: nat, m: nat, k: string)
    requires n <= m <= |fields| && WrittenBy(fields, n, k)
    ensures WrittenBy(fields, m, k)
  {
    var j :| 0 <= j < n && !fields[j].transient && ColumnOf(fields[j]) == k;
    assert j < m;
  }

  /** A column written among the first `n` fields but not by the last of
      them is written among the first `n - 1`. */
  lemma WrittenByShrink(fields: seq<Field>, n: nat, k: string)
    requires 0 < n <= |fields| && WrittenBy(fields, n, k)
    requires fields[n - 1].transient || ColumnOf(fields[n - 1]) != k
    ensures WrittenBy(fields, n - 1, k)
  {
    var j :| 0 <= j < n && !fields[j].transient && ColumnOf(fields[j]) == k;
    assert j < n - 1;
  }

  /** With distinct columns, no earlier field writes a non-transient
      field's column. */
  lemma NotWrittenBefore(fields: seq<Field>, j: nat)
    requires j < |fields| && DistinctColumns(fields) && !fields[j].transient
    ensures !WrittenBy(fields, j, ColumnOf(fields[j]))
  {
  }

  lemma DistinctColumnsAt(fields: seq<Field>, i: nat, j: nat)
    requires i < j < |fields| && DistinctColumns(fields) && !fields[i].transient && !fields[j].transient
    ensures ColumnOf(fields[i]) != ColumnOf(fields[j])
  {
  }

  /** One more setColumn: the document grows by what the field writes, and a
      transient field writes nothing. */
  lemma EncodeStep(reg: Registry, fields: seq<Field>, obj: Value, n: nat)
    requires 0 < n <= |fields|
    ensures var cw := ColumnWrite(reg, fields[n - 1], obj);
      && (cw.Some? ==> !fields[n - 1].transient)
      && EncodeFields(reg, fields, obj, n) ==
           if cw.Some? then Put(EncodeFields(reg, fields, obj, n - 1), ColumnOf(fields[n - 1]), cw.value)
           else EncodeFields(reg, fields, obj, n - 1)
  {
  }

  /** setColumn on a non-null object never writes `_id`. */
  lemma ColumnWriteNotId(reg: Registry, f: Field, obj: Value)
    requires !obj.Null? && ColumnWrite(reg, f, obj).Some?
    ensures !f.transient && ColumnOf(f) != IdColumn
  {
  }

  /** Encoding produces a document with distinct keys, each of them the
      column of a non-transient field: a transient field is never written
      under a column of its own. */
  lemma EncodeKeys(reg: Registry, fields: seq<Field>, obj: Value, n: nat)
    requires n <= |fields|
    ensures UniqueKeys(EncodeFields(reg, fields, obj, n))
    ensures forall k :: k in Keys(EncodeFields(reg, fields, obj, n)) ==> WrittenBy(fields, n, k)
  {
    EncodeUnique(reg, fields, obj, n);
    EncodeKeysWritten(reg, fields, obj, n);
  }

  lemma {:induction false} EncodeUnique(reg: Registry, fields: seq<Field>, obj: Value, n: nat)
    requires n <= |fields|
    ensures UniqueKeys(EncodeFields(reg, fields, obj, n))
    decreases n
  {
    if n > 0 {
      EncodeUnique(reg, fields, obj, n - 1);
      EncodeStep(reg, fields, obj, n);
      var cw := ColumnWrite(reg, fields[n - 1], obj);
      if cw.Some? {
        PutUnique(EncodeFields(reg, fields, obj, n - 1), ColumnOf(fields[n - 1]), cw.value);
      }
    }
  }

  lemma {:induction false} EncodeKeysWritten(reg: Registry, fields: seq<Field>, obj: Value, n: nat)
    requires n <= |fields|
    ensures forall k :: k in Keys(EncodeFields(reg, fields, obj, n)) ==> WrittenBy(fields, n, k)
    decreases n
  {
    if n > 0 {
      EncodeKeysWritten(reg, fields, obj, n - 1);
      EncodeStep(reg, fields, obj, n);
      var prev := EncodeFields(reg, fields, obj, n - 1);
      var f := fields[n - 1];
      var cw := ColumnWrite(reg, f, obj);
      forall k | k in Keys(EncodeFields(reg, fields, obj, n))
        ensures WrittenBy(fields, n, k)
      {
        if cw.Some? {
          PutKeySet(prev, ColumnOf(f), cw.value, k);
        }
        if k in Keys(prev) {
          WrittenByGrow(fields, n - 1, n, k);
        } else {
          assert !f.transient && ColumnOf(f) == k;
        }
      }
    }
  }

  /** Encoding a non-null object never writes the `_id` column. */
  lemma {:induction false} EncodeOmitsId(reg: Registry, fields: seq<Field>, obj: Value, n: nat)
    requires n <= |fields| && !obj.Null?
    ensures IdColumn !in Keys(EncodeFields(reg, fields, obj, n))
    decreases n
  {
    if n > 0 {
      EncodeOmitsId(reg, fields, obj, n - 1);
      var prev := EncodeFields(reg, fields, obj, n - 1);
      var f := fields[n - 1];
      var cw := ColumnWrite(reg, f, obj);
      if cw.Some? {
        ColumnWriteNotId(reg, f, obj);
        PutKeySet(prev, ColumnOf(f), cw.value, IdColumn);
      }
    }
  }

  /** Encoding a null object (a null list element) writes an explicit null
      under the column of every non-transient field, `_id` included, and
      nothing else. */
  lemma {:induction false} EncodeNullObject(reg: Registry, fields: seq<Field>, n: nat)
    requires n <= |fields|
    ensures forall k :: k in Keys(EncodeFields(reg, fields, Null, n)) <==> WrittenBy(fields, n, k)
    ensures forall i :: 0 <= i < |EncodeFields(reg, fields, Null, n)| ==> EncodeFields(reg, fields, Null, n)[i].val == Null
    decreases n
  {
    if n > 0 {
      EncodeNullObject(reg, fields, n - 1);
      EncodeStep(reg, fields, Null, n);
      var prev := EncodeFields(reg, fields, Null, n - 1);
      var f := fields[n - 1];
      var r := EncodeFields(reg, fields, Null, n);
      forall k
        ensures k in Keys(r) <==> WrittenBy(fields, n, k)
      {
        if !f.transient {
          PutKeySet(prev, ColumnOf(f), Null, k);
        }
        if WrittenBy(fields, n, k) && (f.transient || k != ColumnOf(f)) {
          WrittenByShrink(fields, n, k);
        }
        if WrittenBy(fields, n - 1, k) {
          WrittenByGrow(fields, n - 1, n, k);
        }
      }
      if !f.transient {
        PutValues(prev, ColumnOf(f), Null);
      }
    }
  }

  /** With distinct columns, the document holds under a non-transient
      field's column (the @Column name when given, the snake-case name
      otherwise) exactly what setColumn puts for that field, and nothing when
      it puts nothing. */
  lemma {:induction false} EncodeWritesField(reg: Registry, fields: seq<Field>, obj: Value, n: nat, j: nat)
    requires j < n <= |fields| && DistinctColumns(fields) && !fields[j].transient
    ensures Lookup(EncodeFields(reg, fields, obj, n), ColumnOf(fields[j])) == ColumnWrite(reg, fields[j], obj)
    decreases n
  {
    if j < n - 1 {
      EncodeWritesField(reg, fields, obj, n - 1, j);
      WrittenFieldKept(reg, fields, obj, n, j);
    } else {
      LastFieldWritten(reg, fields, obj, n, j);
    }
  }

  /** A later setColumn leaves an earlier field's column as it was. */
  lemma WrittenFieldKept(reg: Registry, fields: seq<Field>, obj: Value, n: nat, j: nat)
    requires j < n - 1 && n <= |fields| && DistinctColumns(fields) && !fields[j].transient
    requires Lookup(EncodeFields(reg, fields, obj, n - 1), ColumnOf(fields[j])) == ColumnWrite(reg, fields[j], obj)
    ensures Lookup(EncodeFields(reg, fields, obj, n), ColumnOf(fields[j])) == ColumnWrite(reg, fields[j], obj)
  {
    var f := fields[n - 1];
    var cw := ColumnWrite(reg, f, obj);
    EncodeStep(reg, fields, obj, n);
    if cw.Some? {
      DistinctColumnsAt(fields, j, n - 1);
      PutKeepsOthers(EncodeFields(reg, fields, obj, n - 1), ColumnOf(f), cw.value, ColumnOf(fields[j]));
    }
  }

  /** The last setColumn so far determines its own column. */
  lemma LastFieldWritten(reg: Registry, fields: seq<Field>, obj: Value, n: nat, j: nat)
    requires j == n - 1 && 0 < n <= |fields| && DistinctColumns(fields) && !fields[j].transient
    ensures Lookup(EncodeFields(reg, fields, obj, n), ColumnOf(fields[j])) == ColumnWrite(reg, fields[j], obj)
  {
    var f := fields[j];
    var prev := EncodeFields(reg, fields, obj, n - 1);
    var cw := ColumnWrite(reg, f, obj);
    EncodeStep(reg, fields, obj, n);
    EncodeKeysWritten(reg, fields, obj, n - 1);
    NotWrittenBefore(fields, j);
    assert ColumnOf(f) !in Keys(prev);
    if cw.Some? {
      PutReads(prev, ColumnOf(f), cw.value);
    }
  }

  /** Null values and values of non-custom types are written unchanged; a
      list of a custom element type becomes a list of Documents of the same
      length, in the same order. */
  lemma EncodeValueShape(reg: Registry, t: JType, v: Value)
    ensures v.Null? || !IsGenericType(t) ==> EncodeValue(reg, t, v) == Some(v)
    ensures t.ListOf? && t.elem.Custom? && v.Arr? ==>
      && EncodeValue(reg, t, v).Some? && EncodeValue(reg, t, v).value.Arr?
      && |EncodeValue(reg, t, v).value.items| == |v.items|
      && forall k :: 0 <= k < |v.items| ==>
           EncodeValue(reg, t, v).value.items[k] ==
           Doc(EncodeFields(reg, ClassOf(reg, t.elem.cls).fields, v.items[k], |ClassOf(reg, t.elem.cls).fields|))
    ensures t.Custom? && !v.Null? ==>
      EncodeValue(reg, t, v) == Some(Doc(Encode(reg, t.cls, v)))
  {
  }

  /** An ObjectId has no fields or getters in the schema, so a custom-typed
      field holding one is written as an empty Document. */
  lemma ObjectIdEncodesEmpty(reg: Registry, h: string)
    ensures EncodeValue(reg, Custom(ObjectIdClass), Oid(h)) == Some(Doc([]))
  {
    EmptyWhenNoGetter(reg, ClassOf(reg, ObjectIdClass).fields, Oid(h), |ClassOf(reg, ObjectIdClass).fields|);
  }

  /** A value that is neither null nor an object gets no column written. */
  lemma {:induction false} EmptyWhenNoGetter(reg: Registry, fields: seq<Field>, v: Value, n: nat)
    requires n <= |fields| && !v.Null? && !v.Obj?
    ensures EncodeFields(reg, fields, v, n) == []
    decreases n
  {
    if n > 0 {
      EmptyWhenNoGetter(reg, fields, v, n - 1);
      assert ColumnWrite(reg, fields[n - 1], v).None?;
    }
  }
}

=== FILE: bean_codec_round_trip.dfy ===
/** decode(encode(x)) == x for every bean the codec can carry faithfully. */
module BeanCodecRoundTrip {
  import opened Results
  import opened Documents
  import opened Schema
  import opened BeanCodec
  import BeanCodecEncode
  import BeanCodecDecode

  /** A field value the codec carries through: the setter accepts it as it
      is (a primitive field holds its own primitive type), a null
      is only stored where the default is null too (otherwise decode restores
      the default), a custom object is itself carried, and a list of a custom
      element type holds carried, non-null instances. */
  predicate ValueRT(reg: Registry, t: JType, v: Value, dflt: Value)
    decreases v, 2
  {
    && Fits(v, t) && Native(v, t)
    && (v.Null? ==> dflt.Null?)
    && match t
       case Custom(c) => v.Null? || BeanRT(reg, c, v)
       case ListOf(e) =>
         IsGenericType(e) && !v.Null? ==>
           e.Custom? && v.Arr? && forall k :: 0 <= k < |v.items| ==> BeanRT(reg, e.cls, v.items[k])
       case _ => true
  }

  /** An instance the codec carries through: its class can be instantiated
      and has distinct field names and distinct columns, the instance holds
      exactly the declared fields, and every field is carried. */
  predicate BeanRT(reg: Registry, c: string, obj: Value)
    decreases obj, 1
  {
    var cd := ClassOf(reg, c);
    && obj.Obj? && obj.cls == c && cd.instantiable
    && DistinctNames(cd.fields) && DistinctColumns(cd.fields)
    && obj.slots.Keys == Defaults(cd.fields).Keys
    && forall j :: 0 <= j < |cd.fields| ==> FieldRT(reg, c, cd.fields[j], obj)
  }

  /** A transient or identifier field holds its default (the codec never
      carries it); any other field has both accessors and a carried value. */
  predicate FieldRT(reg: Registry, c: string, f: Field, obj: Value)
    requires obj.Obj?
    decreases obj, 0
  {
    && f.name in obj.slots
    && if f.transient || ColumnOf(f) == IdColumn then obj.slots[f.name] == f.default
       else HasGetter(reg, c, f) && HasSetter(reg, c, f) && ValueRT(reg, f.ftype, obj.slots[f.name], f.default)
  }

  /** A carried value encodes without failure, to null exactly when it is
      null, and decodes back to itself. */
  lemma {:induction false} ValueRoundTrip(reg: Registry, t: JType, v: Value, dflt: Value)
    requires ValueRT(reg, t, v, dflt)
    ensures EncodeValue(reg, t, v).Some?
    ensures EncodeValue(reg, t, v).value.Null? <==> v.Null?
    ensures DecodeStored(reg, t, EncodeValue(reg, t, v).value) == Some(v)
    decreases v, 2, 0
  {
    if v.Null? {
    } else if t.Custom? {
      BeanRoundTrip(reg, t.cls, v);
    } else if t.ListOf? && IsGenericType(t.elem) {
      var c := t.elem.cls;
      var fields := ClassOf(reg, c).fields;
      var w := Arr(EncodeList(reg, fields, v, 0));
      assert EncodeValue(reg, t, v) == Some(w);
      var r := DecodeList(reg, c, w, 0);
      forall k | 0 <= k < |v.items|
        ensures DecodeElement(reg, c, w.items[k]) == v.items[k]
      {
        BeanRoundTrip(reg, c, v.items[k]);
      }
      if |v.items| > 0 {
        assert BeanRT(reg, c, v.items[0]);
        assert r.Some?;
        assert r.value == v.items;
      } else {
        assert r == Some([]);
        assert v == Arr([]);
      }
    }
  }

  /** The flagship property: decoding the encoding of a carried instance
      reproduces it exactly. */
  lemma {:induction false} BeanRoundTrip(reg: Registry, c: string, obj: Value)
    requires BeanRT(reg, c, obj)
    ensures DecodeFields(reg, ClassOf(reg, c).fields, Encode(reg, c, obj), Fresh(reg, c), |ClassOf(reg, c).fields|) == obj
    ensures Decode(reg, c, Encode(reg, c, obj)) == Some(obj)
    decreases obj, 1, 1
  {
    var r := DecodeFields(reg, ClassOf(reg, c).fields, Encode(reg, c, obj), Fresh(reg, c), |ClassOf(reg, c).fields|);
    SlotsRoundTrip(reg, c, obj);
    assert r.slots == obj.slots;
  }

  /** Every slot of a carried instance decodes, from the instance's
      encoding, to its original value. */
  lemma {:induction false} SlotsRoundTrip(reg: Registry, c: string, obj: Value)
    requires BeanRT(reg, c, obj)
    ensures var r := DecodeFields(reg, ClassOf(reg, c).fields, Encode(reg, c, obj), Fresh(reg, c), |ClassOf(reg, c).fields|);
      && r.Obj? && r.cls == c && r.slots.Keys == obj.slots.Keys
      && forall nm :: nm in obj.slots ==> r.slots[nm] == obj.slots[nm]
    decreases obj, 1, 0
  {
    var fields := ClassOf(reg, c).fields;
    var e := Encode(reg, c, obj);
    var inst := Fresh(reg, c);
    var r := DecodeFields(reg, fields, e, inst, |fields|);
    BeanCodecDecode.DecodeFieldsSlot(reg, fields, e, inst, |fields|);
    forall nm | nm in obj.slots
      ensures r.slots[nm] == obj.slots[nm]
    {
      var j :| 0 <= j < |fields| && fields[j].name == nm;
      FieldRoundTrip(reg, c, obj, j);
    }
  }

  /** One field of a carried instance decodes, from the instance's encoding,
      to its original value. */
  lemma {:induction false} FieldRoundTrip(reg: Registry, c: string, obj: Value, j: nat)
    requires BeanRT(reg, c, obj) && j < |ClassOf(reg, c).fields|
    ensures SetField(reg, ClassOf(reg, c).fields[j], Encode(reg, c, obj), Fresh(reg, c)).slots[ClassOf(reg, c).fields[j].name]
      == obj.slots[ClassOf(reg, c).fields[j].name]
    decreases obj, 0, 0
  {
    var fields := ClassOf(reg, c).fields;
    var f := fields[j];
    var e := Encode(reg, c, obj);
    var inst := Fresh(reg, c);
    assert FieldRT(reg, c, f, obj);
    DefaultsAt(fields, j);
    if f.transient {
    } else if ColumnOf(f) == IdColumn {
      BeanCodecEncode.EncodeOmitsId(reg, fields, obj, |fields|);
      assert Lookup(e, IdColumn).None?;
    } else {
      var v := obj.slots[f.name];
      BeanCodecEncode.EncodeWritesField(reg, fields, obj, |fields|, j);
      ValueRoundTrip(reg, f.ftype, v, f.default);
      var w := EncodeValue(reg, f.ftype, v).value;
      assert Lookup(e, ColumnOf(f)) == Some(w);
      assert FieldValue(reg, f, e, inst) == Some(v);
    }
  }
}

=== FILE: documents.dfy ===
/** Runtime values seen by the codecs and the insertion-ordered document
    (org.bson.Document, a LinkedHashMap) they read and write. */
module Documents {
  import opened Results

  /** The class of a number: the wrapper of a numeric primitive, or another
      Number subclass (BigDecimal, AtomicLong, java.lang.Number itself as a
      declared type, ...) by its name. */
  datatype NumClass = ByteN | ShortN | IntN | LongN | FloatN | DoubleN | OtherN(cls: string)

  /** The classes a pass-through value may belong to: the types the custom-type
      test excludes (Number, String, Boolean, Map, BasicDBObject, BasicDBList).
      A Map class other than BasicDBObject is named. */
  datatype AtomKind = NumberK(num: NumClass) | StringK | BooleanK | MapK(mapClass: string) | DBObjectK | DBListK

  /** A Java value as far as the codecs can tell: null, a pass-through value
      (kind and rendering), an ObjectId (held as its string form), a Document,
      a List, or an instance of a bean class with its field values. */
  datatype Value =
    | Null
    | Atom(kind: AtomKind, text: string)
    | Oid(hex: string)
    | Doc(entries: seq<Entry>)
    | Arr(items: seq<Value>)
    | Obj(cls: string, slots: map<string, Value>)

  datatype Entry = Entry(key: string, val: Value)

  /** The key order of a document. */
  function Keys(d: seq<Entry>): (ks: seq<string>)
    ensures |ks| == |d|
    ensures forall i :: 0 <= i < |d| ==> ks[i] == d[i].key
  {
    if d == [] then [] else Keys(d[..|d| - 1]) + [d[|d| - 1].key]
  }

  /** Keys of a document built only by Put are pairwise distinct. */
  predicate UniqueKeys(d: seq<Entry>) {
    forall i, j :: 0 <= i < j < |d| ==> d[i].key != d[j].key
  }

  /** containsKey + get: the stored value, or None when the key is absent. */
  function Lookup(d: seq<Entry>, k: string): (r: Option<Value>)
    ensures r.None? <==> k !in Keys(d)
    ensures r.Some? ==> exists i :: 0 <= i < |d| && d[i] == Entry(k, r.value)
  {
    if d == [] then None
    else if d[|d| - 1].key == k && Lookup(d[..|d| - 1], k).None? then Some(d[|d| - 1].val)
    else Lookup(d[..|d| - 1], k)
  }

  /** Document.get: null for an absent key. */
  function Get(d: seq<Entry>, k: string): Value {
    Lookup(d, k).GetOr(Null)
  }

  /** Document.put: replaces the value in place when the key is present,
      appends the entry otherwise. */
  function Put(d: seq<Entry>, k: string, v: Value): (r: seq<Entry>)
    ensures k in Keys(d) ==> Keys(r) == Keys(d)
    ensures k !in Keys(d) ==> r == d + [Entry(k, v)]
  {
    if k in Keys(d) then PutAt(d, k, v) else d + [Entry(k, v)]
  }

  function PutAt(d: seq<Entry>, k: string, v: Value): (r: seq<Entry>)
    ensures Keys(r) == Keys(d)
    ensures forall i :: 0 <= i < |d| ==> r[i] == if d[i].key == k then Entry(k, v) else d[i]
  {
    seq(|d|, i requires 0 <= i < |d| => if d[i].key == k then Entry(k, v) else d[i])
  }

  lemma {:induction false} LookupUnique(d: seq<Entry>, i: nat)
    requires UniqueKeys(d) && i < |d|
    ensures Lookup(d, d[i].key) == Some(d[i].val)
  {
    var p := d[..|d| - 1];
    assert UniqueKeys(p);
    if i < |d| - 1 {
      LookupUnique(p, i);
      assert p[i] == d[i];
    }
  }

  /** Put keeps the keys distinct and the existing keys where they were. */
  lemma PutUnique(d: seq<Entry>, k: string, v: Value)
    requires UniqueKeys(d)
    ensures UniqueKeys(Put(d, k, v))
    ensures Keys(Put(d, k, v))[..|d|] == Keys(d)
  {
    if k in Keys(d) {
      PutReplaceUnique(d, k, v);
    } else {
      PutAppendUnique(d, k, v);
    }
  }

  lemma PutReplaceUnique(d: seq<Entry>, k: string, v: Value)
    requires UniqueKeys(d) && k in Keys(d)
    ensures UniqueKeys(Put(d, k, v))
    ensures Keys(Put(d, k, v))[..|d|] == Keys(d)
  {
    var r := Put(d, k, v);
    assert Keys(r) == Keys(d);
    assert |r| == |d|;
    forall i, j | 0 <= i < j < |r|
      ensures r[i].key != r[j].key
    {
      assert r[i].key == Keys(r)[i] == Keys(d)[i] == d[i].key;
      assert r[j].key == Keys(r)[j] == Keys(d)[j] == d[j].key;
    }
    assert Keys(r)[..|d|] == Keys(r);
  }

  lemma PutAppendUnique(d: seq<Entry>, k: string, v: Value)
    requires UniqueKeys(d) && k !in Keys(d)
    ensures UniqueKeys(Put(d, k, v))
    ensures Keys(Put(d, k, v))[..|d|] == Keys(d)
  {
    var r := d + [Entry(k, v)];
    assert r[..|d|] == d;
    assert Keys(r) == Keys(d) + [k];
    forall i, j | 0 <= i < j < |r|
      ensures r[i].key != r[j].key
    {
      assert r[i] == d[i];
      if j < |d| {
        assert r[j] == d[j];
      } else {
        assert Keys(d)[i] == d[i].key;
      }
    }
    assert (Keys(d) + [k])[..|d|] == Keys(d);
  }

  /** Put makes the key read back as the new value: every entry under the
      key is rewritten in place, or the entry is appended. */
  lemma PutReads(d: seq<Entry>, k: string, v: Value)
    ensures Lookup(Put(d, k, v), k) == Some(v)
  {
    var r := Put(d, k, v);
    if k !in Keys(d) {
      assert r[..|d|] == d;
    } else {
      assert k in Keys(r);
      var i :| 0 <= i < |r| && r[i] == Entry(k, Lookup(r, k).value);
      assert r[i] == Entry(k, v);
    }
  }

  /** Put leaves every other key as it was. */
  lemma PutKeepsOthers(d: seq<Entry>, k: string, v: Value, k': string)
    requires k' != k
    ensures Lookup(Put(d, k, v), k') == Lookup(d, k')
  {
    var r := Put(d, k, v);
    if k !in Keys(d) {
      assert r[..|d|] == d;
    } else {
      LookupSameEntries(d, r, k');
    }
  }

  /** Two documents that agree, position by position, on which entries carry
      key `k` and on those entries' values, read `k` alike. */
  lemma {:induction false} LookupSameEntries(d1: seq<Entry>, d2: seq<Entry>, k: string)
    requires |d1| == |d2|
    requires forall i :: 0 <= i < |d1| ==> (d1[i].key == k <==> d2[i].key == k)
    requires forall i :: 0 <= i < |d1| && d1[i].key == k ==> d1[i].val == d2[i].val
    ensures Lookup(d1, k) == Lookup(d2, k)
    decreases |d1|
  {
    if d1 != [] {
      var p1, p2 := d1[..|d1| - 1], d2[..|d2| - 1];
      assert forall i :: 0 <= i < |p1| ==> p1[i] == d1[i] && p2[i] == d2[i];
      LookupSameEntries(p1, p2, k);
    }
  }

  /** Every value after a Put is the written value or a value held before. */
  lemma PutValues(d: seq<Entry>, k: string, v: Value)
    ensures forall i :: 0 <= i < |Put(d, k, v)| ==>
      Put(d, k, v)[i].val == v || (i < |d| && Put(d, k, v)[i].val == d[i].val)
  {
  }

  /** The keys after a Put are the keys before it plus the written key. */
  lemma PutKeySet(d: seq<Entry>, k: string, v: Value, k': string)
    ensures k' in Keys(Put(d, k, v)) <==> k' in Keys(d) || k' == k
  {
    if k !in Keys(d) {
      assert Keys(Put(d, k, v)) == Keys(d) + [k];
    }
  }
}

=== FILE: factory.dfy ===
/** The newleaf MongoFactory: mongo.xml location, connection parsing, the
    run-once connection set-up, and init tying them to the codec scan. The
    MongoDB driver is replaced by a record of what each client is built from;
    XML files are given as already parsed documents. */
module Factory {
  import opened Results
  import opened Strings
  import Naming
  import Tables
  import Scanner
  import ScanAction

  const ConfName: string := "mongo.xml"

  // ------------------------------------------------------------ mongo.xml

  /** Where loadXml reads the configuration from. */
  datatype ConfigSource = Classpath(resource: string) | FilePath(path: string)

  /** loadXml's path handling: a null or empty path means the class-path
      resource "mongo.xml"; a path not ending with "mongo.xml" is taken as a
      directory and gets "mongo.xml" appended, with a '/' only when missing. */
  function ConfigPath(confPath: Option<string>): (r: ConfigSource)
    ensures confPath.None? || confPath.value == "" <==> r == Classpath(ConfName)
    ensures r.FilePath? ==> StartsWith(r.path, confPath.value) && EndsWith(r.path, ConfName)
    ensures r.FilePath? && EndsWith(confPath.value, ConfName) ==> r.path == confPath.value
  {
    match confPath
    case None => Classpath(ConfName)
    case Some(p) =>
      if p == "" then Classpath(ConfName)
      else if EndsWith(p, ConfName) then FilePath(p)
      else if EndsWith(p, "/") then FilePath(p + ConfName)
      else FilePath(p + "/" + ConfName)
  }

  /** Resolving a resolved path changes nothing. */
  lemma ConfigPathIdempotent(p: string)
    requires p != ""
    ensures ConfigPath(Some(p)).FilePath?
    ensures ConfigPath(Some(ConfigPath(Some(p)).path)) == ConfigPath(Some(p))
  {
    var q := ConfigPath(Some(p)).path;
    assert q != "";
  }

  /** A directory path and the same path with a trailing '/' resolve to the
      same file: exactly one '/' separates directory and file name. */
  lemma ConfigPathSeparator(dir: string)
    requires dir != "" && !EndsWith(dir, "/") && !EndsWith(dir, ConfName)
    ensures !EndsWith(dir + "/", ConfName)
    ensures ConfigPath(Some(dir)) == ConfigPath(Some(dir + "/")) == FilePath(dir + "/" + ConfName)
  {
    var d := dir + "/";
    assert d[|d| - 1..] == "/";
    if |ConfName| <= |d| {
      assert d[|d| - |ConfName|..][|ConfName| - 1] == '/';
    }
    assert dir + "/" + ConfName == d + ConfName;
  }

  // ---------------------------------------------------------- connections

  /** A <connection> element: the text of its uri, db, name and isDefault
      children, each missing when the child is absent. */
  datatype ConnectionNode = ConnectionNode(uri: Option<string>, db: Option<string>, name: Option<string>, isDefault: Option<string>)

  /** A parsed mongo.xml: the <package> texts and the <connection> elements. */
  datatype ConfigDoc = ConfigDoc(packages: seq<string>, connections: seq<ConnectionNode>)

  /** MongoConnection. */
  datatype Connection = Connection(uri: string, db: string, name: string, isDefault: bool)

  /** String.equalsIgnoreCase, for ASCII letters. */
  predicate EqualsIgnoreCase(a: string, b: string) {
    |a| == |b| && forall i :: 0 <= i < |a| ==> Naming.ToLower(a[i]) == Naming.ToLower(b[i])
  }

  /** Boolean.valueOf: true exactly for "true" in any letter case. */
  function ParseBoolean(s: string): (r: bool)
    ensures r <==> |s| == 4 && forall i :: 0 <= i < 4 ==> s[i] == "true"[i] || s[i] == "TRUE"[i]
  {
    TrueIgnoringCase(s);
    EqualsIgnoreCase(s, "true")
  }

  /** Equal to "true" ignoring case means: four letters, each the lower- or
      the upper-case letter of "true" at its position. */
  lemma TrueIgnoringCase(s: string)
    ensures EqualsIgnoreCase(s, "true") <==> |s| == 4 && forall i :: 0 <= i < 4 ==> s[i] == "true"[i] || s[i] == "TRUE"[i]
  {
    var t, u := "true", "TRUE";
    if |s| == 4 {
      forall i | 0 <= i < 4
        ensures Naming.ToLower(s[i]) == Naming.ToLower(t[i]) <==> s[i] == t[i] || s[i] == u[i]
      {
        assert Naming.ToLower(t[i]) == t[i];
      }
    }
  }

  /** Boolean.valueOf on sample texts: any letter case of "true" is true,
      and anything else is false. */
  lemma ParseBooleanExamples(a: string, b: string, c: string, d: string)
    requires a == "tRuE" && b == "false" && c == "yes" && d == "truee"
    ensures ParseBoolean(a) && !ParseBoolean(b) && !ParseBoolean(c) && !ParseBoolean(d)
  {
    assert a[0] == 't' && a[1] == 'R' && a[2] == 'u' && a[3] == 'E';
    assert b[0] == 'f';
  }

  /** One element: a missing uri, db or name child makes getText throw a
      NullPointerException; a missing isDefault means false. */
  function ParseConnection(node: ConnectionNode): (r: Option<Connection>)
    ensures r.Some? <==> node.uri.Some? && node.db.Some? && node.name.Some?
    ensures r.Some? ==> r.value.uri == node.uri.value && r.value.db == node.db.value && r.value.name == node.name.value
    ensures r.Some? && node.isDefault.None? ==> !r.value.isDefault
  {
    match (node.uri, node.db, node.name)
    case (Some(uri), Some(db), Some(name)) =>
      var isDefault := match node.isDefault case Some(t) => ParseBoolean(t) case None => false;
      Some(Connection(uri, db, name, isDefault))
    case _ => None
  }

  /** parseMongoConnection: every element in document order, or the failure
      of the first incomplete one. */
  function ParseConnections(nodes: seq<ConnectionNode>): (r: Option<seq<Connection>>)
    ensures r.Some? <==> forall i :: 0 <= i < |nodes| ==> ParseConnection(nodes[i]).Some?
    ensures r.Some? ==> |r.value| == |nodes| && forall i :: 0 <= i < |nodes| ==> ParseConnection(nodes[i]) == Some(r.value[i])
  {
    if nodes == [] then Some([])
    else
      match (ParseConnection(nodes[0]), ParseConnections(nodes[1..]))
      case (Some(c), Some(rest)) =>
        assert forall i :: 1 <= i < |nodes| ==> nodes[i] == nodes[1..][i - 1];
        Some([c] + rest)
      case (None, _) => None
      case (_, None) =>
        assert forall i :: 0 <= i < |nodes| - 1 ==> nodes[1..][i] == nodes[i + 1];
        None
  }

  // --------------------------------------------------- createConnections

  /** A MongoDB handle: its name and what its client was built from. An empty
      codec multiset means the driver's default registry alone. */
  datatype MongoDb = MongoDb(name: string, uri: string, database: string, codecs: multiset<string>)

  /** The factory singleton's state: hasInit, the static name-to-database map,
      the default database and the collection-name cache. */
  datatype FactoryState = FactoryState(hasInit: bool, dbs: map<string, MongoDb>, defaultDb: Option<MongoDb>, tables: Tables.Cache)

  const Initial: FactoryState := FactoryState(false, map[], None, map[])

  function Connect(c: Connection, codecs: multiset<string>): MongoDb {
    MongoDb(c.name, c.uri, c.db, codecs)
  }

  /** The loop of createConnections, up to the end of `conns`. */
  function RegisterAll(st: FactoryState, conns: seq<Connection>, codecs: multiset<string>): FactoryState
    decreases |conns|
  {
    if conns == [] then st
    else
      var prev := RegisterAll(st, conns[..|conns| - 1], codecs);
      var c := conns[|conns| - 1];
      var db := Connect(c, codecs);
      prev.(dbs := prev.dbs[c.name := db], defaultDb := if c.isDefault then Some(db) else prev.defaultDb)
  }

  /** createConnections: the first call with connections sets hasInit and
      registers every connection; every later call, and a call without
      connections, changes nothing. */
  function CreateConnections(st: FactoryState, conns: seq<Connection>, codecs: multiset<string>): (r: FactoryState)
    ensures r.hasInit == (st.hasInit || conns != [])
    ensures st.hasInit || conns == [] ==> r == st
    ensures r.tables == st.tables
  {
    if !st.hasInit && conns != [] then RegisterAllFrame(st.(hasInit := true), conns, codecs); RegisterAll(st.(hasInit := true), conns, codecs)
    else st
  }

  lemma {:induction false} RegisterAllFrame(st: FactoryState, conns: seq<Connection>, codecs: multiset<string>)
    ensures RegisterAll(st, conns, codecs).hasInit == st.hasInit
    ensures RegisterAll(st, conns, codecs).tables == st.tables
    decreases |conns|
  {
    if conns != [] {
      RegisterAllFrame(st, conns[..|conns| - 1], codecs);
    }
  }

  /** Reference definition: the last connection of `conns` called `name`. */
  function LastNamed(conns: seq<Connection>, name: string): Option<Connection>
    decreases |conns|
  {
    if conns == [] then None
    else if conns[|conns| - 1].name == name then Some(conns[|conns| - 1])
    else LastNamed(conns[..|conns| - 1], name)
  }

  /** Reference definition: the last connection of `conns` marked default. */
  function LastDefault(conns: seq<Connection>): Option<Connection>
    decreases |conns|
  {
    if conns == [] then None
    else if conns[|conns| - 1].isDefault then Some(conns[|conns| - 1])
    else LastDefault(conns[..|conns| - 1])
  }

  /** After registration a name maps to the database of its last connection,
      names without a connection keep their earlier database, and the default
      database is that of the last connection marked default, if any. */
  lemma {:induction false} RegisterAllSpec(st: FactoryState, conns: seq<Connection>, codecs: multiset<string>, name: string)
    ensures var r := RegisterAll(st, conns, codecs);
      && (name in r.dbs <==> name in st.dbs || LastNamed(conns, name).Some?)
      && (LastNamed(conns, name).Some? ==> r.dbs[name] == Connect(LastNamed(conns, name).value, codecs))
      && (LastNamed(conns, name).None? && name in st.dbs ==> r.dbs[name] == st.dbs[name])
      && r.defaultDb == match LastDefault(conns) case Some(c) => Some(Connect(c, codecs)) case None => st.defaultDb
    decreases |conns|
  {
    if conns != [] {
      RegisterAllSpec(st, conns[..|conns| - 1], codecs, name);
    }
  }

  /** The last connection of a name is one of the connections of that name. */
  lemma {:induction false} LastNamedIn(conns: seq<Connection>, name: string)
    ensures LastNamed(conns, name).Some? <==> exists i :: 0 <= i < |conns| && conns[i].name == name
    ensures LastNamed(conns, name).Some? ==> LastNamed(conns, name).value in conns && LastNamed(conns, name).value.name == name
    decreases |conns|
  {
    if conns != [] {
      var init := conns[..|conns| - 1];
      LastNamedIn(init, name);
      if exists i :: 0 <= i < |conns| && conns[i].name == name {
        var i :| 0 <= i < |conns| && conns[i].name == name;
        if i < |conns| - 1 {
          assert init[i] == conns[i];
        }
      }
      if exists i :: 0 <= i < |init| && init[i].name == name {
        var i :| 0 <= i < |init| && init[i].name == name;
        assert conns[i] == init[i];
      }
    }
  }

  /** Connections are set up once: a second call, with any connections and
      codecs, leaves the state of the first. */
  lemma CreateConnectionsOnce(st: FactoryState, first: seq<Connection>, second: seq<Connection>, c1: multiset<string>, c2: multiset<string>)
    requires first != []
    ensures var r := CreateConnections(st, first, c1);
      CreateConnections(r, second, c2) == r
  {
  }

  // ----------------------------------------------------------------- init

  /** The package texts as a HashSet, enumerated in first-occurrence order. */
  function Distinct(s: seq<string>): (r: seq<string>)
    ensures forall x :: x in r <==> x in s
    ensures forall i, j :: 0 <= i < j < |r| ==> r[i] != r[j]
    decreases |s|
  {
    if s == [] then []
    else
      var rest := Distinct(s[..|s| - 1]);
      if s[|s| - 1] in rest then rest else rest + [s[|s| - 1]]
  }

  /** The codec set a fresh BeanCodecScanAction holds after a recursive
      scan of the configured packages. */
  function ScannedCodecs(packages: seq<string>, classes: ScanAction.ClassPath, loader: map<string, seq<Scanner.Resource>>): multiset<string> {
    ScanAction.DoActions(classes, multiset{}, Scanner.Scan(Some(Distinct(packages)), true, loader))
  }

  /** init: a configuration that cannot be found, or a connection element
      that cannot be read, makes init log the exception and change nothing;
      otherwise the configured packages are scanned and, when there are
      connections, createConnections runs with the scanned codecs. */
  function Init(st: FactoryState, confPath: Option<string>, classpathDoc: Option<ConfigDoc>, files: map<string, ConfigDoc>,
                classes: ScanAction.ClassPath, loader: map<string, seq<Scanner.Resource>>): (r: FactoryState)
    ensures st.hasInit ==> r == st
    ensures r.tables == st.tables
    ensures r != st ==> r.hasInit && !st.hasInit
  {
    var doc := match ConfigPath(confPath)
      case Classpath(_) => classpathDoc
      case FilePath(p) => if p in files then Some(files[p]) else None;
    match doc
    case None => st
    case Some(d) =>
      var codecs := ScannedCodecs(d.packages, classes, loader);
      match ParseConnections(d.connections)
      case None => st
      case Some(conns) => if conns != [] then CreateConnections(st, conns, codecs) else st
  }

  /** A found configuration with readable connections registers every one of
      them, each database built with one instance of every scanned codec
      class. */
  lemma InitRegisters(confPath: Option<string>, classpathDoc: Option<ConfigDoc>, files: map<string, ConfigDoc>,
                      classes: ScanAction.ClassPath, loader: map<string, seq<Scanner.Resource>>, doc: ConfigDoc, conns: seq<Connection>, name: string)
    requires match ConfigPath(confPath)
      case Classpath(_) => classpathDoc == Some(doc)
      case FilePath(p) => p in files && files[p] == doc
    requires ParseConnections(doc.connections) == Some(conns)
    requires LastNamed(conns, name).Some?
    ensures var r := Init(Initial, confPath, classpathDoc, files, classes, loader);
      && r.hasInit
      && name in r.dbs
      && r.dbs[name].uri == LastNamed(conns, name).value.uri
      && r.dbs[name].database == LastNamed(conns, name).value.db
      && r.dbs[name].codecs == multiset(ScanAction.CodecsAmong(classes, Scanner.Scan(Some(Distinct(doc.packages)), true, loader)))
  {
    var names := Scanner.Scan(Some(Distinct(doc.packages)), true, loader);
    ScanAction.DoActionsAdds(classes, multiset{}, names);
    assert conns != [];
    RegisterAllSpec(Initial.(hasInit := true), conns, ScannedCodecs(doc.packages, classes, loader), name);
  }
}

=== FILE: legacy_codec.dfy ===
/** The flat bean codec of the Spring Boot starter
    (org.mongo.spring.boot.autoconfigure): same naming, transient and `_id`
    rules as the nested codec, but values are written and read unchanged. */
module LegacyCodec {
  import opened Results
  import opened Documents
  import opened Schema
  import BeanCodec
  import BeanCodecEncode
  import BeanCodecDecode
  import BeanCodecRoundTrip

  /** What setColumn puts for one field: the getter's value, unchanged, under
      the field's column unless the field is transient, the column is `_id`,
      or the getter is missing (a null object has no getter at all). */
  function ColumnWrite(reg: Registry, f: Field, obj: Value): Option<Value> {
    if !f.transient && obj.Obj? && HasGetter(reg, obj.cls, f) && f.name in obj.slots && ColumnOf(f) != IdColumn
    then Some(obj.slots[f.name])
    else None
  }

  function EncodeFields(reg: Registry, fields: seq<Field>, obj: Value, n: nat): seq<Entry>
    requires n <= |fields|
  {
    if n == 0 then []
    else
      var prev := EncodeFields(reg, fields, obj, n - 1);
      match ColumnWrite(reg, fields[n - 1], obj)
      case None => prev
      case Some(w) => Put(prev, ColumnOf(fields[n - 1]), w)
  }

  function Encode(reg: Registry, c: string, obj: Value): seq<Entry> {
    EncodeFields(reg, ClassOf(reg, c).fields, obj, |ClassOf(reg, c).fields|)
  }

  /** The value setField hands to the setter: the ObjectId's string form for
      `_id`; otherwise document.get(column, default) when the default is
      non-null (a null or absent value yields the default) and
      document.get(column) when it is null. None when reading throws. */
  function FieldValue(f: Field, d: seq<Entry>, obj: Value): Option<Value> {
    var col := ColumnOf(f);
    if col == IdColumn then
      match Lookup(d, IdColumn)
      case Some(Oid(h)) => Some(Atom(StringK, h))
      case _ => None
    else
      var dflt := BeanCodec.Current(obj, f);
      var stored := Get(d, col);
      if !dflt.Null? && stored.Null? then Some(dflt) else Some(stored)
  }

  function SetField(reg: Registry, f: Field, d: seq<Entry>, obj: Value): Value {
    if f.transient || !obj.Obj? then obj
    else
      match FieldValue(f, d, obj)
      case None => obj
      case Some(w) =>
        if HasSetter(reg, obj.cls, f) && Fits(w, f.ftype) then Obj(obj.cls, obj.slots[f.name := Assigned(w, f.ftype)]) else obj
  }

  function DecodeFields(reg: Registry, fields: seq<Field>, d: seq<Entry>, obj: Value, n: nat): Value
    requires n <= |fields|
  {
    if n == 0 then obj else SetField(reg, fields[n - 1], d, DecodeFields(reg, fields, d, obj, n - 1))
  }

  /** decode: null when the class cannot be instantiated; per-field failures
      leave the field at its default and the rest still decode. */
  function Decode(reg: Registry, c: string, d: seq<Entry>): Option<Value> {
    var cd := ClassOf(reg, c);
    if !cd.instantiable then None
    else Some(DecodeFields(reg, cd.fields, d, Fresh(reg, c), |cd.fields|))
  }

  /** Every declared field has a type both codecs pass through: no custom
      type and no List of a custom type. */
  predicate Flat(fields: seq<Field>) {
    forall j :: 0 <= j < |fields| ==> PassThrough(fields[j].ftype)
  }

  /** On a non-null object of a flat class, the flat encoder writes exactly
      what the nested encoder writes. */
  lemma {:induction false} EncodeAgrees(reg: Registry, fields: seq<Field>, obj: Value, n: nat)
    requires n <= |fields| && Flat(fields) && !obj.Null?
    ensures EncodeFields(reg, fields, obj, n) == BeanCodec.EncodeFields(reg, fields, obj, n)
    decreases n
  {
    if n > 0 {
      EncodeAgrees(reg, fields, obj, n - 1);
      assert ColumnWrite(reg, fields[n - 1], obj) == BeanCodec.ColumnWrite(reg, fields[n - 1], obj);
    }
  }

  /** On a flat class, the flat decoder fills every field exactly as the
      nested decoder does. */
  lemma {:induction false} DecodeAgrees(reg: Registry, fields: seq<Field>, d: seq<Entry>, obj: Value, n: nat)
    requires n <= |fields| && Flat(fields)
    ensures DecodeFields(reg, fields, d, obj, n) == BeanCodec.DecodeFields(reg, fields, d, obj, n)
    decreases n
  {
    if n > 0 {
      DecodeAgrees(reg, fields, d, obj, n - 1);
      SetFieldAgrees(reg, fields[n - 1], d, DecodeFields(reg, fields, d, obj, n - 1));
    }
  }

  /** On a field of a pass-through type, the flat setField assigns what the
      nested one assigns. */
  lemma SetFieldAgrees(reg: Registry, f: Field, d: seq<Entry>, o: Value)
    requires PassThrough(f.ftype)
    ensures SetField(reg, f, d, o) == BeanCodec.SetField(reg, f, d, o)
  {
    BeanCodecDecode.PassThroughKept(reg, f.ftype, Get(d, ColumnOf(f)));
    BeanCodecDecode.PassThroughKept(reg, f.ftype, BeanCodec.Current(o, f));
    assert FieldValue(f, d, o) == BeanCodec.FieldValue(reg, f, d, o);
  }

  /** Writes: under a non-transient, non-`_id` field's column the flat
      encoder stores the getter's value unchanged, whatever the field's type
      (distinct columns), and it never stores `_id`. */
  lemma EncodeWritesField(reg: Registry, c: string, obj: Value, j: nat)
    requires j < |ClassOf(reg, c).fields| && DistinctColumns(ClassOf(reg, c).fields) && obj.Obj?
    requires !ClassOf(reg, c).fields[j].transient && ColumnOf(ClassOf(reg, c).fields[j]) != IdColumn
    requires HasGetter(reg, obj.cls, ClassOf(reg, c).fields[j]) && ClassOf(reg, c).fields[j].name in obj.slots
    ensures Lookup(Encode(reg, c, obj), ColumnOf(ClassOf(reg, c).fields[j])) == Some(obj.slots[ClassOf(reg, c).fields[j].name])
    ensures IdColumn !in Keys(Encode(reg, c, obj))
  {
    var fields := ClassOf(reg, c).fields;
    var stored := AsStored(fields);
    EncodeAsStored(reg, fields, obj, |fields|);
    BeanCodecEncode.EncodeWritesField(reg, stored, obj, |fields|, j);
    StoredColumnWrite(reg, fields[j], obj);
    BeanCodecEncode.EncodeOmitsId(reg, stored, obj, |fields|);
  }

  /** Taken as a pass-through type, a readable field is written as its value. */
  lemma StoredColumnWrite(reg: Registry, f: Field, obj: Value)
    requires !f.transient && ColumnOf(f) != IdColumn && obj.Obj? && HasGetter(reg, obj.cls, f) && f.name in obj.slots
    ensures BeanCodec.ColumnWrite(reg, f.(ftype := Boxed(StringK)), obj) == Some(obj.slots[f.name])
  {
  }

  /** The fields with every declared type replaced by one the nested codec
      passes through unchanged; names, columns and @Transient are kept. */
  function AsStored(fields: seq<Field>): (r: seq<Field>)
    ensures |r| == |fields|
    ensures forall j :: 0 <= j < |fields| ==> r[j] == fields[j].(ftype := Boxed(StringK))
    ensures DistinctColumns(fields) ==> DistinctColumns(r)
  {
    seq(|fields|, j requires 0 <= j < |fields| => fields[j].(ftype := Boxed(StringK)))
  }

  /** The flat encoder is the nested one with no conversion: on an object it
      writes what the nested encoder writes for the same fields taken as
      pass-through types. */
  lemma {:induction false} EncodeAsStored(reg: Registry, fields: seq<Field>, obj: Value, n: nat)
    requires n <= |fields| && obj.Obj?
    ensures EncodeFields(reg, fields, obj, n) == BeanCodec.EncodeFields(reg, AsStored(fields), obj, n)
    decreases n
  {
    if n > 0 {
      EncodeAsStored(reg, fields, obj, n - 1);
      assert ColumnWrite(reg, fields[n - 1], obj) == BeanCodec.ColumnWrite(reg, AsStored(fields)[n - 1], obj);
    }
  }

  /** What sets the flat codec apart: a non-null custom-typed field value is
      written as the object itself, where the nested codec writes the
      Document of its fields. */
  lemma NoNestedConversion(reg: Registry, f: Field, obj: Value)
    requires f.ftype.Custom? && !f.transient && ColumnOf(f) != IdColumn
    requires obj.Obj? && HasGetter(reg, obj.cls, f) && f.name in obj.slots && !obj.slots[f.name].Null?
    ensures ColumnWrite(reg, f, obj) == Some(obj.slots[f.name])
    ensures BeanCodec.ColumnWrite(reg, f, obj) == Some(Doc(BeanCodec.Encode(reg, f.ftype.cls, obj.slots[f.name])))
  {
  }

  /** decode(encode(x)) == x for every carried instance of a flat class. */
  lemma RoundTrip(reg: Registry, c: string, obj: Value)
    requires BeanCodecRoundTrip.BeanRT(reg, c, obj) && Flat(ClassOf(reg, c).fields)
    ensures Decode(reg, c, Encode(reg, c, obj)) == Some(obj)
  {
    var fields := ClassOf(reg, c).fields;
    EncodeAgrees(reg, fields, obj, |fields|);
    DecodeAgrees(reg, fields, Encode(reg, c, obj), Fresh(reg, c), |fields|);
    BeanCodecRoundTrip.BeanRoundTrip(reg, c, obj);
  }

  /** A field whose current value is non-null keeps it when its column is
      null or absent, whatever the field's type: the default is passed to
      document.get and handed back to the setter. */
  lemma DecodeKeepsDefault(reg: Registry, f: Field, d: seq<Entry>, obj: Value)
    requires ColumnOf(f) != IdColumn && obj.Obj? && f.name in obj.slots && !obj.slots[f.name].Null?
    requires Native(obj.slots[f.name], f.ftype) && Get(d, ColumnOf(f)).Null?
    ensures SetField(reg, f, d, obj) == obj
  {
    var w := obj.slots[f.name];
    assert obj.slots[f.name := Assigned(w, f.ftype)] == obj.slots;
  }

  /** A non-null stored value reaches the setter unchanged, whatever the
      current value: the field receives it, widened to a primitive field's
      own type, exactly when Method.invoke accepts it, and keeps its value
      otherwise. */
  lemma DecodeStoredValue(reg: Registry, f: Field, d: seq<Entry>, obj: Value)
    requires !f.transient && ColumnOf(f) != IdColumn && obj.Obj? && !Get(d, ColumnOf(f)).Null? && HasSetter(reg, obj.cls, f)
    ensures Fits(Get(d, ColumnOf(f)), f.ftype) ==>
      SetField(reg, f, d, obj) == Obj(obj.cls, obj.slots[f.name := Assigned(Get(d, ColumnOf(f)), f.ftype)])
    ensures !Fits(Get(d, ColumnOf(f)), f.ftype) ==> SetField(reg, f, d, obj) == obj
  {
  }

  /** An ObjectId stored under an ordinary column reaches a setter declared
      ObjectId unchanged and is assigned. */
  lemma ObjectIdStored(reg: Registry, f: Field, d: seq<Entry>, obj: Value, h: string)
    requires f.ftype == Custom(ObjectIdClass) && !f.transient && ColumnOf(f) != IdColumn
    requires obj.Obj? && HasSetter(reg, obj.cls, f) && Get(d, ColumnOf(f)) == Oid(h)
    ensures SetField(reg, f, d, obj) == Obj(obj.cls, obj.slots[f.name := Oid(h)])
  {
    DecodeStoredValue(reg, f, d, obj);
  }
}

=== FILE: naming.dfy ===
/** Field-name to column-name conversion and accessor names, shared by both
    codec variants (the two copies of getColumnName, getMethodGetName and
    getMethodSetName are character-for-character identical). */
module Naming {

  /** The ASCII test `s >= 'A' && s <= 'Z'` used by getColumnName. */
  predicate IsUpper(c: char) {
    'A' <= c <= 'Z'
  }

  predicate IsLower(c: char) {
    'a' <= c <= 'z'
  }

  /** Character.toLowerCase restricted to ASCII letters. */
  function ToLower(c: char): (r: char)
    ensures IsUpper(c) ==> IsLower(r) && r as int == c as int + 32
    ensures !IsUpper(c) ==> r == c
  {
    if IsUpper(c) then (c as int + 32) as char else c
  }

  /** Character.toUpperCase restricted to ASCII letters. */
  function ToUpper(c: char): (r: char)
    ensures IsLower(c) ==> IsUpper(r) && r as int == c as int - 32
    ensures !IsLower(c) ==> r == c
  {
    if IsLower(c) then (c as int - 32) as char else c
  }

  /** Position `i` receives a separator: an uppercase letter, not at position 0,
      whose predecessor is not uppercase. */
  predicate IsBoundary(s: string, i: int)
    requires 0 <= i < |s|
  {
    i > 0 && IsUpper(s[i]) && !IsUpper(s[i - 1])
  }

  /** What character `i` of the field name turns into. */
  function Piece(s: string, i: int): string
    requires 0 <= i < |s|
  {
    if IsBoundary(s, i) then ['_', ToLower(s[i])] else [s[i]]
  }

  /** Reference definition: the column name of the first `n` characters,
      built piece by piece. */
  function ColumnNameUpTo(s: string, n: nat): string
    requires n <= |s|
  {
    if n == 0 then [] else ColumnNameUpTo(s, n - 1) + Piece(s, n - 1)
  }

  /** Number of separators inserted among the first `n` characters. */
  function Boundaries(s: string, n: nat): nat
    requires n <= |s|
  {
    if n == 0 then 0 else Boundaries(s, n - 1) + (if IsBoundary(s, n - 1) then 1 else 0)
  }

  function ColumnName(s: string): string {
    ColumnNameUpTo(s, |s|)
  }

  lemma {:induction false} UpToLength(s: string, n: nat)
    requires n <= |s|
    ensures |ColumnNameUpTo(s, n)| == n + Boundaries(s, n)
    decreases n
  {
    if n > 0 {
      UpToLength(s, n - 1);
    }
  }

  /** Every character's piece sits at the character's own index shifted by
      the separators inserted before it. */
  lemma {:induction false} UpToPlacement(s: string, n: nat, i: nat)
    requires i < n <= |s|
    ensures i + Boundaries(s, i) + |Piece(s, i)| <= |ColumnNameUpTo(s, n)|
    ensures ColumnNameUpTo(s, n)[i + Boundaries(s, i)..i + Boundaries(s, i) + |Piece(s, i)|] == Piece(s, i)
    decreases n
  {
    UpToLength(s, n - 1);
    if i < n - 1 {
      UpToPlacement(s, n - 1, i);
      PrefixSlice(ColumnNameUpTo(s, n - 1), Piece(s, n - 1), i + Boundaries(s, i), i + Boundaries(s, i) + |Piece(s, i)|);
    } else {
      LastPiecePlaced(s, n, i);
    }
  }

  /** The last character's piece ends the column name built so far. */
  lemma LastPiecePlaced(s: string, n: nat, i: nat)
    requires i == n - 1 && 0 < n <= |s|
    ensures i + Boundaries(s, i) + |Piece(s, i)| == |ColumnNameUpTo(s, n)|
    ensures ColumnNameUpTo(s, n)[i + Boundaries(s, i)..i + Boundaries(s, i) + |Piece(s, i)|] == Piece(s, i)
  {
    UpToLength(s, i);
    SuffixSlice(ColumnNameUpTo(s, i), Piece(s, i));
  }

  /** The second part of a concatenation, sliced back out. */
  lemma SuffixSlice(a: string, b: string)
    ensures (a + b)[|a|..|a| + |b|] == b
  {
  }

  /** A slice within the first part of a concatenation is a slice of that part. */
  lemma PrefixSlice(a: string, b: string, lo: nat, hi: nat)
    requires lo <= hi <= |a|
    ensures (a + b)[lo..hi] == a[lo..hi]
  {
  }

  /** One step of the builder loop: replacing, at the shifted offset, the
      current character by its piece turns the state after `i` characters
      into the state after `i + 1`. */
  lemma BuilderStep(s: string, i: nat, column: string, count: nat)
    requires i < |s| && count == Boundaries(s, i) && column == ColumnNameUpTo(s, i) + s[i..]
    ensures i + count < |column| && column[i + count] == s[i]
    ensures IsBoundary(s, i) ==>
      && ColumnNameUpTo(s, i + 1) + s[i + 1..] == column[..i + count] + ['_', ToLower(s[i])] + column[i + count + 1..]
      && Boundaries(s, i + 1) == count + 1
    ensures !IsBoundary(s, i) ==>
      && ColumnNameUpTo(s, i + 1) + s[i + 1..] == column
      && Boundaries(s, i + 1) == count
  {
    UpToLength(s, i);
    var a := ColumnNameUpTo(s, i);
    assert s[i..] == [s[i]] + s[i + 1..];
    assert ColumnNameUpTo(s, i + 1) == a + Piece(s, i);
    Splice(a, s[i], s[i + 1..], Piece(s, i));
  }

  /** Replacing the character just after `a` by `p`. */
  lemma Splice(a: string, c: char, rest: string, p: string)
    ensures var pre := a + ([c] + rest);
      && |a| < |pre| && pre[|a|] == c
      && (a + p) + rest == pre[..|a|] + p + pre[|a| + 1..]
  {
    var pre := a + ([c] + rest);
    assert pre[..|a|] == a;
    assert pre[|a| + 1..] == rest;
  }

  /** getColumnName as written: a StringBuilder initialised with the field
      name, where each boundary character at index i is replaced, at offset
      i + count, by "_" and its lowercase form. */
  method GetColumnName(fieldName: string) returns (column: string)
    ensures column == ColumnName(fieldName)
    ensures |column| == |fieldName| + Boundaries(fieldName, |fieldName|)
  {
    column := fieldName;
    var count := 0;
    var i := 0;
    while i < |fieldName|
      invariant 0 <= i <= |fieldName|
      invariant count == Boundaries(fieldName, i)
      invariant column == ColumnNameUpTo(fieldName, i) + fieldName[i..]
    {
      BuilderStep(fieldName, i, column, count);
      var s := fieldName[i];
      if IsUpper(s) && i > 0 {
        var sBefore := fieldName[i - 1];
        if !IsUpper(sBefore) {
          assert IsBoundary(fieldName, i);
          column := column[..i + count] + ['_', ToLower(s)] + column[i + count + 1..];
          count := count + 1;
        } else {
          assert !IsBoundary(fieldName, i);
        }
      } else {
        assert !IsBoundary(fieldName, i);
      }
      i := i + 1;
    }
    assert fieldName[i..] == [];
    UpToLength(fieldName, |fieldName|);
  }

  /** The output is the input lengthened by one character per separator. */
  lemma ColumnNameLength(s: string)
    ensures |ColumnName(s)| == |s| + Boundaries(s, |s|)
  {
    UpToLength(s, |s|);
  }

  /** Position 0 is never changed. */
  lemma ColumnNameKeepsFirst(s: string)
    requires |s| > 0
    ensures |ColumnName(s)| > 0 && ColumnName(s)[0] == s[0]
  {
    UpToPlacement(s, |s|, 0);
    assert ColumnName(s)[0..1] == [s[0]];
  }

  /** An uppercase letter directly after another uppercase letter is copied,
      case kept, to its shifted position. */
  lemma ColumnNameKeepsUpperRun(s: string, i: nat)
    requires 0 < i < |s| && IsUpper(s[i - 1]) && IsUpper(s[i])
    ensures i + Boundaries(s, i) < |ColumnName(s)|
    ensures ColumnName(s)[i + Boundaries(s, i)] == s[i]
  {
    UpToPlacement(s, |s|, i);
    var k := i + Boundaries(s, i);
    assert ColumnName(s)[k..k + 1] == [s[i]];
  }

  /** A boundary letter becomes '_' followed by its lowercase form. */
  lemma ColumnNameSplitsAtBoundary(s: string, i: nat)
    requires i < |s| && IsBoundary(s, i)
    ensures i + Boundaries(s, i) + 1 < |ColumnName(s)|
    ensures ColumnName(s)[i + Boundaries(s, i)] == '_'
    ensures ColumnName(s)[i + Boundaries(s, i) + 1] == ToLower(s[i])
  {
    UpToPlacement(s, |s|, i);
    var k := i + Boundaries(s, i);
    assert ColumnName(s)[k..k + 2] == ['_', ToLower(s[i])];
    assert ColumnName(s)[k] == ColumnName(s)[k..k + 2][0];
    assert ColumnName(s)[k + 1] == ColumnName(s)[k..k + 2][1];
  }

  lemma {:induction false} NoBoundaryUpTo(s: string, n: nat)
    requires n <= |s|
    requires forall i :: 0 <= i < n ==> !IsBoundary(s, i)
    ensures ColumnNameUpTo(s, n) == s[..n]
    decreases n
  {
    if n > 0 {
      NoBoundaryUpTo(s, n - 1);
      assert s[..n] == s[..n - 1] + [s[n - 1]];
    }
  }

  lemma {:induction false} BoundaryCounted(s: string, n: nat, i: nat)
    requires i < n <= |s| && IsBoundary(s, i)
    ensures Boundaries(s, n) > 0
    decreases n
  {
    if i < n - 1 {
      BoundaryCounted(s, n - 1, i);
    }
  }

  /** The name is returned unchanged exactly when it has no boundary: in
      particular any name without ASCII uppercase letters, and names whose
      uppercase letters all follow another uppercase letter or stand first. */
  lemma ColumnNameUnchangedIff(s: string)
    ensures ColumnName(s) == s <==> forall i :: 0 <= i < |s| ==> !IsBoundary(s, i)
  {
    if forall i :: 0 <= i < |s| ==> !IsBoundary(s, i) {
      NoBoundaryUpTo(s, |s|);
      assert s[..|s|] == s;
    } else {
      var i :| 0 <= i < |s| && IsBoundary(s, i);
      BoundaryCounted(s, |s|, i);
      ColumnNameLength(s);
    }
  }

  lemma ColumnNameExamples()
    ensures ColumnName("userName") == "user_name"
    ensures ColumnName("id") == "id"
    ensures ColumnName("URLPath") == "URLPath"
  {
    ColumnNameUnchangedIff("id");
    ColumnNameUnchangedIff("URLPath");
    var s := "userName";
    NoBoundaryUpTo(s, 4);
    assert ColumnNameUpTo(s, 4) == "user";
    assert IsBoundary(s, 4);
    assert ColumnNameUpTo(s, 5) == "user_n";
    assert ColumnNameUpTo(s, 6) == "user_na";
    assert ColumnNameUpTo(s, 7) == "user_nam";
    assert ColumnNameUpTo(s, 8) == "user_name";
  }

  /** The conversion is not injective: two distinct field names can map to
      the same column, so distinct columns do not follow from distinct
      field names. */
  lemma ColumnNamesCollide(a: string, b: string)
    requires a == "aB" && b == "a_b"
    ensures a != b && ColumnName(a) == ColumnName(b) == "a_b"
  {
    ColumnNameUnchangedIff(b);
    assert a[1] != b[1];
    assert ColumnNameUpTo(a, 1) == "a";
    assert IsBoundary(a, 1);
    assert ColumnNameUpTo(a, 2) == "a_b";
  }

  /** "get"/"set" + first character uppercased + the rest of the name. */
  function AccessorName(prefix: string, name: string): (r: string)
    requires |name| > 0
    ensures |r| == |prefix| + |name|
    ensures r[..|prefix|] == prefix && r[|prefix|] == ToUpper(name[0])
    ensures r[|prefix| + 1..] == name[1..]
  {
    prefix + [ToUpper(name[0])] + name[1..]
  }

  function GetterName(name: string): string
    requires |name| > 0
  {
    AccessorName("get", name)
  }

  function SetterName(name: string): string
    requires |name| > 0
  {
    AccessorName("set", name)
  }

  /** Two field names share a getter (or a setter) name exactly when they
      agree after the first character and their first characters have the same
      uppercase form; getter and setter of one field differ only in the prefix. */
  lemma AccessorNamesAgree(a: string, b: string)
    requires |a| > 0 && |b| > 0
    ensures GetterName(a) == GetterName(b) <==> ToUpper(a[0]) == ToUpper(b[0]) && a[1..] == b[1..]
    ensures SetterName(a) == SetterName(b) <==> GetterName(a) == GetterName(b)
    ensures GetterName(a)[3..] == SetterName(a)[3..]
  {
    var ga, gb := GetterName(a), GetterName(b);
    if ToUpper(a[0]) == ToUpper(b[0]) && a[1..] == b[1..] {
      assert ga == gb;
      assert SetterName(a) == SetterName(b);
    }
    if SetterName(a) == SetterName(b) {
      assert SetterName(a)[3] == SetterName(b)[3];
      assert SetterName(a)[4..] == SetterName(b)[4..];
    }
  }
}

=== FILE: results.dfy ===
/** Optional values and failures shared by every module. */
module Results {

  /** A present or missing value: Java's nullable reference. */
  datatype Option<+T> = None | Some(value: T) {
    function GetOr(default: T): T {
      match this
      case Some(v) => v
      case None => default
    }
  }

  /** The exceptions of the modelled code that a caller can observe. */
  datatype Error =
    | IllegalArgument(message: string)
    | StringIndexOutOfBounds
    | NullPointer
    | ClassNotFound(className: string)
    | Instantiation(className: string)

  datatype Result<+T> = Ok(value: T) | Err(error: Error)
}

=== FILE: scan_action.dfy ===
/** What happens to each class name the scanner reports: the newleaf
    BeanCodecScanAction and the Spring Boot starter's addCodec. Class loading
    and reflection are replaced by a table of facts about each loadable class;
    the codec set is a multiset of class names, because every scan creates a
    fresh codec instance and instances are compared by identity. */
module ScanAction {
  import opened Results

  /** The newleaf abstract codec base class, excluded from the codec set. */
  const NewleafBeanCodec: string := "top.newleaf.mongo.codec.BeanCodec"
  /** The Spring Boot starter's abstract codec base class. */
  const SpringBeanCodec: string := "org.mongo.spring.boot.autoconfigure.BeanCodec"

  /** What reflection would tell about a loadable class: whether it is
      assignable to CollectibleCodec, whether it is assignable to the starter's
      BeanCodec, and whether newInstance succeeds. */
  datatype ClassFacts = ClassFacts(collectible: bool, springBeanCodec: bool, instantiable: bool)

  /** Class.forName: the classes that can be loaded, by name. */
  type ClassPath = map<string, ClassFacts>

  /** A newleaf codec: a loadable CollectibleCodec other than BeanCodec itself,
      whose no-argument constructor succeeds. */
  predicate NewleafCodec(classes: ClassPath, className: string) {
    && className in classes
    && classes[className].collectible
    && className != NewleafBeanCodec
    && classes[className].instantiable
  }

  /** doAction: every failure (class not found, newInstance throwing) is
      logged and swallowed; only a codec class adds one instance. */
  function DoAction(classes: ClassPath, codecs: multiset<string>, className: string): (r: multiset<string>)
    ensures NewleafCodec(classes, className) ==> r == codecs + multiset{className}
    ensures !NewleafCodec(classes, className) ==> r == codecs
  {
    if className in classes then
      var facts := classes[className];
      if facts.collectible && className != NewleafBeanCodec then
        if facts.instantiable then codecs + multiset{className} else codecs
      else codecs
    else codecs
  }

  /** The codec classes among the scanned names, in scan order. */
  function CodecsAmong(classes: ClassPath, names: seq<string>): (r: seq<string>)
    ensures forall x :: x in r <==> x in names && NewleafCodec(classes, x)
    ensures |r| <= |names|
  {
    if names == [] then []
    else (if NewleafCodec(classes, names[0]) then [names[0]] else []) + CodecsAmong(classes, names[1..])
  }

  /** doAction over a scan, in the order the names arrive. */
  function DoActions(classes: ClassPath, codecs: multiset<string>, names: seq<string>): multiset<string>
    decreases |names|
  {
    if names == [] then codecs
    else DoActions(classes, DoAction(classes, codecs, names[0]), names[1..])
  }

  /** After a scan the codec set holds exactly one more instance for every
      reported codec class name, duplicates included, and nothing else. */
  lemma {:induction false} DoActionsAdds(classes: ClassPath, codecs: multiset<string>, names: seq<string>)
    ensures DoActions(classes, codecs, names) == codecs + multiset(CodecsAmong(classes, names))
    decreases |names|
  {
    if names != [] {
      var next := DoAction(classes, codecs, names[0]);
      DoActionsAdds(classes, next, names[1..]);
      assert names == [names[0]] + names[1..];
    }
  }

  /** The instances of one class in the codec set count how often the scan
      reported it; a class reported twice is registered twice. */
  lemma ScannedTwice(classes: ClassPath, className: string)
    requires NewleafCodec(classes, className)
    ensures DoActions(classes, multiset{}, [className, className])[className] == 2
  {
    DoActionsAdds(classes, multiset{}, [className, className]);
    assert CodecsAmong(classes, [className, className]) == [className, className];
  }

  // ------------------------------------------------------ Spring Boot starter

  /** A Spring Boot starter codec: a subclass of its BeanCodec, other than
      BeanCodec itself. */
  predicate SpringCodec(classes: ClassPath, className: string) {
    className in classes && classes[className].springBeanCodec && className != SpringBeanCodec
  }

  /** addCodec: a missing class and a failing constructor are thrown to the
      caller; a class that is not a starter codec is ignored. */
  function AddCodec(classes: ClassPath, codecs: multiset<string>, className: string): (r: Result<multiset<string>>)
    ensures r.Err? <==> className !in classes || (SpringCodec(classes, className) && !classes[className].instantiable)
    ensures r.Err? && className !in classes ==> r.error == ClassNotFound(className)
    ensures r.Err? && className in classes ==> r.error == Instantiation(className)
    ensures r.Ok? ==> r.value == if SpringCodec(classes, className) then codecs + multiset{className} else codecs
  {
    if className !in classes then Err(ClassNotFound(className))
    else
      var facts := classes[className];
      if facts.springBeanCodec && className != SpringBeanCodec then
        if facts.instantiable then Ok(codecs + multiset{className}) else Err(Instantiation(className))
      else Ok(codecs)
  }

  /** The outcome of the starter's scan: the codec field after the scan (it
      keeps what was added before a failure) and the exception, if any. */
  datatype ScanOutcome = ScanOutcome(codecs: multiset<string>, failure: Option<Error>)

  /** addCodec over the scanned names; the first exception ends the scan. */
  function AddCodecs(classes: ClassPath, codecs: multiset<string>, names: seq<string>): (r: ScanOutcome)
    decreases |names|
  {
    if names == [] then ScanOutcome(codecs, None)
    else
      match AddCodec(classes, codecs, names[0])
      case Err(e) => ScanOutcome(codecs, Some(e))
      case Ok(next) => AddCodecs(classes, next, names[1..])
  }

  /** A name addCodec rejects. */
  predicate Rejected(classes: ClassPath, className: string) {
    className !in classes || (SpringCodec(classes, className) && !classes[className].instantiable)
  }

  /** Without a rejected name the scan completes and adds every starter codec. */
  lemma {:induction false} AddCodecsComplete(classes: ClassPath, codecs: multiset<string>, names: seq<string>)
    requires forall i :: 0 <= i < |names| ==> !Rejected(classes, names[i])
    ensures AddCodecs(classes, codecs, names) == ScanOutcome(codecs + multiset(SpringCodecsAmong(classes, names)), None)
    decreases |names|
  {
    if names != [] {
      assert !Rejected(classes, names[0]);
      assert names == [names[0]] + names[1..];
      assert forall i :: 0 <= i < |names| - 1 ==> names[1..][i] == names[i + 1];
      AddCodecsComplete(classes, AddCodec(classes, codecs, names[0]).value, names[1..]);
    }
  }

  /** When the k-th name is the first rejected one, the scan reports that
      name's exception and keeps the codecs of the names before it. */
  lemma {:induction false} AddCodecsStops(classes: ClassPath, codecs: multiset<string>, names: seq<string>, k: nat)
    requires k < |names| && Rejected(classes, names[k])
    requires forall i :: 0 <= i < k ==> !Rejected(classes, names[i])
    ensures AddCodecs(classes, codecs, names)
      == ScanOutcome(codecs + multiset(SpringCodecsAmong(classes, names[..k])), Some(AddCodec(classes, codecs, names[k]).error))
    decreases k
  {
    if k == 0 {
      assert names[..0] == [];
    } else {
      assert !Rejected(classes, names[0]);
      var next := AddCodec(classes, codecs, names[0]).value;
      assert names[1..][k - 1] == names[k];
      assert forall i :: 0 <= i < k - 1 ==> names[1..][i] == names[i + 1];
      AddCodecsStops(classes, next, names[1..], k - 1);
      SpringCodecsPrefix(classes, codecs, names, k);
    }
  }

  /** The codecs kept before the k-th name, counted from the first name or
      from the second after the first name's addCodec. */
  lemma SpringCodecsPrefix(classes: ClassPath, codecs: multiset<string>, names: seq<string>, k: nat)
    requires 0 < k <= |names| && !Rejected(classes, names[0])
    ensures AddCodec(classes, codecs, names[0]).value + multiset(SpringCodecsAmong(classes, names[1..][..k - 1]))
      == codecs + multiset(SpringCodecsAmong(classes, names[..k]))
  {
    var head := if SpringCodec(classes, names[0]) then [names[0]] else [];
    var rest := names[1..][..k - 1];
    assert names[..k][0] == names[0] && names[..k][1..] == rest;
    assert SpringCodecsAmong(classes, names[..k]) == head + SpringCodecsAmong(classes, rest);
    assert multiset(head + SpringCodecsAmong(classes, rest)) == multiset(head) + multiset(SpringCodecsAmong(classes, rest));
  }

  /** The scan fails exactly when some reported name is rejected. */
  lemma {:induction false} AddCodecsFailsIff(classes: ClassPath, codecs: multiset<string>, names: seq<string>)
    ensures AddCodecs(classes, codecs, names).failure.Some? <==> exists i :: 0 <= i < |names| && Rejected(classes, names[i])
    decreases |names|
  {
    if names != [] {
      var r0 := AddCodec(classes, codecs, names[0]);
      if r0.Ok? {
        AddCodecsFailsIff(classes, r0.value, names[1..]);
        if exists i :: 0 <= i < |names| && Rejected(classes, names[i]) {
          var i :| 0 <= i < |names| && Rejected(classes, names[i]);
          assert i > 0 && names[1..][i - 1] == names[i];
        }
        if exists i :: 0 <= i < |names| - 1 && Rejected(classes, names[1..][i]) {
          var i :| 0 <= i < |names| - 1 && Rejected(classes, names[1..][i]);
          assert names[i + 1] == names[1..][i];
        }
      }
    }
  }

  /** The starter codec classes among the scanned names, in scan order. */
  function SpringCodecsAmong(classes: ClassPath, names: seq<string>): (r: seq<string>)
    ensures forall x :: x in r <==> x in names && SpringCodec(classes, x)
  {
    if names == [] then []
    else (if SpringCodec(classes, names[0]) then [names[0]] else []) + SpringCodecsAmong(classes, names[1..])
  }
}

=== FILE: scanner.dfy ===
/** Class-name discovery (ClassScanner, duplicated in the Spring Boot
    starter's MongoFactory): the class-loader resources of a package are
    given as directory trees or jar entry lists, and the scan yields, in
    order, the class names handed to the scan action. */
module Scanner {
  import opened Results
  import opened Strings

  const ClassSuffix: string := ".class"

  /** scanPackage.replaceAll("\\.", "/"): the resource path of a package. */
  function PackagePath(pkg: string): string {
    Replace(pkg, '.', '/')
  }

  /** getClassName: null when the file name has no '.', otherwise the package,
      a '.', and the file name up to its last '.'. */
  function GetClassName(pkg: string, fileName: string): Option<string> {
    var endIndex := LastIndexOf(fileName, '.');
    if endIndex >= 0 then Some(pkg + "." + fileName[..endIndex]) else None
  }

  lemma GetClassNameSpec(pkg: string, fileName: string)
    ensures GetClassName(pkg, fileName).None? <==> '.' !in fileName
    ensures forall stem :: fileName == stem + ClassSuffix ==> GetClassName(pkg, fileName) == Some(pkg + "." + stem)
  {
    forall stem | fileName == stem + ClassSuffix
      ensures GetClassName(pkg, fileName) == Some(pkg + "." + stem)
    {
      var i := LastIndexOf(fileName, '.');
      assert fileName[|stem|] == '.';
      assert fileName[|stem| + 1..] == "class";
      assert i == |stem|;
      assert fileName[..i] == stem;
    }
  }

  // ------------------------------------------------------------ directories

  /** A directory entry: a file, or a sub-directory with its entries. */
  datatype Node = File(name: string) | Dir(name: string, children: seq<Node>)

  /** scanClassNameFromDir over the listed entries, in listing order: a
      `.class` file reports its class name; a sub-directory is descended, with
      the package extended by "." and its name, only when recursive. */
  function ScanDir(pkg: string, nodes: seq<Node>, recursive: bool): seq<string>
    decreases nodes
  {
    if nodes == [] then []
    else ScanNode(pkg, nodes[0], recursive) + ScanDir(pkg, nodes[1..], recursive)
  }

  function ScanNode(pkg: string, node: Node, recursive: bool): seq<string>
    decreases node
  {
    match node
    case File(name) =>
      if EndsWith(name, ClassSuffix) then
        (match GetClassName(pkg, name) case Some(cn) => [cn] case None => [])
      else []
    case Dir(name, children) =>
      if recursive then ScanDir(pkg + "." + name, children, recursive) else []
  }

  /** Number of `.class` files in a listing, sub-directories included. */
  function ClassFiles(nodes: seq<Node>): nat
    decreases nodes
  {
    if nodes == [] then 0
    else
      (match nodes[0]
       case File(name) => if EndsWith(name, ClassSuffix) then 1 else 0
       case Dir(_, children) => ClassFiles(children))
      + ClassFiles(nodes[1..])
  }

  /** The top-level `.class` files of a listing, as class names of `pkg`. */
  function TopLevelClasses(pkg: string, nodes: seq<Node>): seq<string> {
    if nodes == [] then []
    else
      (if nodes[0].File? && EndsWith(nodes[0].name, ClassSuffix)
       then [pkg + "." + nodes[0].name[..|nodes[0].name| - |ClassSuffix|]] else [])
      + TopLevelClasses(pkg, nodes[1..])
  }

  /** Without recursion only the top-level `.class` files are reported, each
      as the package, '.', and the file name without ".class". */
  lemma {:induction false} ScanDirFlat(pkg: string, nodes: seq<Node>)
    ensures ScanDir(pkg, nodes, false) == TopLevelClasses(pkg, nodes)
    decreases nodes
  {
    if nodes != [] {
      ScanDirFlat(pkg, nodes[1..]);
      if nodes[0].File? && EndsWith(nodes[0].name, ClassSuffix) {
        var name := nodes[0].name;
        var stem := name[..|name| - |ClassSuffix|];
        assert name == stem + ClassSuffix;
        GetClassNameSpec(pkg, name);
      }
    }
  }

  /** A recursive scan reports one name per `.class` file in the whole tree,
      and every reported name lies inside the package: it starts with the
      package followed by '.'. */
  lemma {:induction false} ScanDirReports(pkg: string, nodes: seq<Node>)
    ensures |ScanDir(pkg, nodes, true)| == ClassFiles(nodes)
    ensures forall x :: x in ScanDir(pkg, nodes, true) ==> StartsWith(x, pkg + ".")
    decreases nodes
  {
    if nodes != [] {
      ScanDirReports(pkg, nodes[1..]);
      ScanNodeReports(pkg, nodes[0]);
    }
  }

  lemma {:induction false} ScanNodeReports(pkg: string, node: Node)
    ensures |ScanNode(pkg, node, true)| == ClassFiles([node])
    ensures forall x :: x in ScanNode(pkg, node, true) ==> StartsWith(x, pkg + ".")
    decreases node
  {
    assert [node][1..] == [];
    match node
    case File(name) =>
      if EndsWith(name, ClassSuffix) {
        var stem := name[..|name| - |ClassSuffix|];
        assert name == stem + ClassSuffix;
        GetClassNameSpec(pkg, name);
        assert (pkg + "." + stem)[..|pkg + "."|] == pkg + ".";
      }
    case Dir(name, children) =>
      ScanDirReports(pkg + "." + name, children);
      forall x | x in ScanNode(pkg, node, true)
        ensures StartsWith(x, pkg + ".")
      {
        assert StartsWith(x, pkg + "." + name + ".");
        assert x[..|pkg + "."|] == (pkg + "." + name + ".")[..|pkg + "."|];
      }
  }

  // ------------------------------------------------------------------- jars

  datatype JarEntry = JarEntry(name: string, isDirectory: bool)

  /** The class name of a `.class` jar entry: the text before its first '.',
      with '/' replaced by '.'. */
  function JarClassName(entryName: string): string
    requires '.' in entryName
  {
    Replace(entryName[..IndexOf(entryName, '.')], '/', '.')
  }

  /** The package of a class name: the text before its last '.', or "". */
  function PackageOf(className: string): string {
    var index := LastIndexOf(className, '.');
    if index != -1 then className[..index] else ""
  }

  /** The jar filter: a plain string prefix when recursive, the exact
      package otherwise. */
  predicate JarMatches(scanPackage: string, className: string, recursive: bool) {
    if recursive then StartsWith(className, scanPackage) else PackageOf(className) == scanPackage
  }

  /** Whether a jar entry is reported, and under which name. */
  predicate Reported(scanPackage: string, e: JarEntry, recursive: bool) {
    && !e.isDirectory
    && EndsWith(e.name, ClassSuffix)
    && '.' in e.name
    && JarMatches(scanPackage, JarClassName(e.name), recursive)
  }

  /** scanClassNameFromJar over every entry of the jar, in order. */
  function ScanJar(scanPackage: string, entries: seq<JarEntry>, recursive: bool): (r: seq<string>)
    ensures |r| <= |entries|
    ensures forall x :: x in r <==>
      exists i :: 0 <= i < |entries| && Reported(scanPackage, entries[i], recursive) && JarClassName(entries[i].name) == x
  {
    if entries == [] then []
    else
      var e := entries[0];
      var rest := ScanJar(scanPackage, entries[1..], recursive);
      if !e.isDirectory && EndsWith(e.name, ClassSuffix) then
        assert e.name[|e.name| - |ClassSuffix|] == '.';
        var clazzName := JarClassName(e.name);
        if JarMatches(scanPackage, clazzName, recursive) then [clazzName] + rest else rest
      else rest
  }

  /** A class name whose exact package is `pkg` also starts with `pkg`: the
      non-recursive jar scan reports a subset of the recursive one. */
  lemma ExactPackageIsPrefix(pkg: string, className: string)
    requires JarMatches(pkg, className, false)
    ensures JarMatches(pkg, className, true)
  {
  }

  lemma NonRecursiveJarSubset(pkg: string, entries: seq<JarEntry>)
    ensures forall x :: x in ScanJar(pkg, entries, false) ==> x in ScanJar(pkg, entries, true)
  {
    forall x | x in ScanJar(pkg, entries, false)
      ensures x in ScanJar(pkg, entries, true)
    {
      var i :| 0 <= i < |entries| && Reported(pkg, entries[i], false) && JarClassName(entries[i].name) == x;
      ExactPackageIsPrefix(pkg, x);
      assert Reported(pkg, entries[i], true);
    }
  }

  /** The recursive filter is a bare string prefix: package "a.b" also picks
      up "a.bc.X", which the exact-package filter rejects. */
  lemma PrefixFilterQuirk()
    ensures JarMatches("a.b", "a.bc.X", true)
    ensures !JarMatches("a.b", "a.bc.X", false)
  {
    assert LastIndexOf("a.bc.X", '.') == 4;
  }

  /** The jar entry of a class is its resource path plus ".class": the class
      name derived from it is the class itself, for a name without '/'. */
  lemma JarClassNameInverse(className: string)
    requires '/' !in className
    ensures '.' in PackagePath(className) + ClassSuffix
    ensures JarClassName(PackagePath(className) + ClassSuffix) == className
  {
    var p := PackagePath(className);
    var e := p + ClassSuffix;
    ReplaceInverse(className, '.', '/');
    assert e[|p|] == '.';
    assert IndexOf(e, '.') == |p|;
    assert e[..|p|] == p;
  }

  // ---------------------------------------------------------------- scan

  /** What the class loader returns for a resource path: a directory, a jar
      (all its entries), or a URL of another protocol. */
  datatype Resource = DirResource(children: seq<Node>) | JarResource(entries: seq<JarEntry>) | OtherResource

  function ScanResources(pkg: string, resources: seq<Resource>, recursive: bool): seq<string> {
    if resources == [] then []
    else
      (match resources[0]
       case DirResource(children) => ScanDir(pkg, children, recursive)
       case JarResource(entries) => ScanJar(pkg, entries, recursive)
       case OtherResource => [])
      + ScanResources(pkg, resources[1..], recursive)
  }

  /** scan: for every package, in iteration order, every resource found under
      its path. A null or empty package set triggers no callback. */
  function Scan(packages: Option<seq<string>>, recursive: bool, loader: map<string, seq<Resource>>): (r: seq<string>)
    ensures packages.None? || packages.value == [] ==> r == []
  {
    match packages
    case None => []
    case Some(pkgs) => ScanPackages(pkgs, recursive, loader)
  }

  function ScanPackages(pkgs: seq<string>, recursive: bool, loader: map<string, seq<Resource>>): seq<string> {
    if pkgs == [] then []
    else ScanPackage(pkgs[0], recursive, loader) + ScanPackages(pkgs[1..], recursive, loader)
  }

  /** One package: every resource the class loader finds under its path, in
      the loader's order; none when the path is unknown. */
  function ScanPackage(pkg: string, recursive: bool, loader: map<string, seq<Resource>>): seq<string> {
    var path := PackagePath(pkg);
    if path in loader then ScanResources(pkg, loader[path], recursive) else []
  }

  /** Scanning one more package appends that package's names: the whole scan
      is the concatenation of the per-package scans, in iteration order. */
  lemma {:induction false} ScanAppend(pkgs: seq<string>, pkg: string, recursive: bool, loader: map<string, seq<Resource>>)
    ensures Scan(Some(pkgs + [pkg]), recursive, loader) == Scan(Some(pkgs), recursive, loader) + ScanPackage(pkg, recursive, loader)
    decreases |pkgs|
  {
    if pkgs == [] {
      assert [pkg][1..] == [];
    } else {
      assert (pkgs + [pkg])[1..] == pkgs[1..] + [pkg];
      ScanAppend(pkgs[1..], pkg, recursive, loader);
    }
  }

  /** A name is reported exactly when some package's own scan reports it. */
  lemma {:induction false} ScanReports(pkgs: seq<string>, recursive: bool, loader: map<string, seq<Resource>>, x: string)
    ensures x in Scan(Some(pkgs), recursive, loader) <==>
      exists i :: 0 <= i < |pkgs| && x in ScanPackage(pkgs[i], recursive, loader)
    decreases |pkgs|
  {
    if pkgs != [] {
      ScanReports(pkgs[1..], recursive, loader, x);
      if x in ScanPackage(pkgs[0], recursive, loader) {
        assert 0 < |pkgs|;
      }
      if exists i :: 1 <= i < |pkgs| && x in ScanPackage(pkgs[i], recursive, loader) {
        var i :| 1 <= i < |pkgs| && x in ScanPackage(pkgs[i], recursive, loader);
        assert pkgs[1..][i - 1] == pkgs[i];
      }
      if exists i :: 0 <= i < |pkgs| - 1 && x in ScanPackage(pkgs[1..][i], recursive, loader) {
        var i :| 0 <= i < |pkgs| - 1 && x in ScanPackage(pkgs[1..][i], recursive, loader);
        assert pkgs[1..][i] == pkgs[i + 1];
      }
    }
  }
}

=== FILE: schema.dfy ===
/** The explicit per-class schema that stands in for reflection over declared
    fields, annotations, accessor methods and no-argument constructors. */
module Schema {
  import opened Results
  import opened Documents
  import Naming

  /** The reserved identifier column. */
  const IdColumn: string := "_id"

  /** A declared field type: a primitive, a non-custom reference class (one of
      the pass-through kinds), java.util.List with its type argument, or a
      user class. */
  datatype JType =
    | Primitive(k: AtomKind)
    | Boxed(k: AtomKind)
    | ListOf(elem: JType)
    | Custom(cls: string)

  /** isGenericType: neither primitive nor Number, String, Boolean, Map,
      BasicDBObject or BasicDBList. A List type itself passes the test. */
  predicate IsGenericType(t: JType) {
    !t.Primitive? && !t.Boxed?
  }

  /** A declared field: its name, its @Column override, whether it carries
      @Transient, its declared type and the value a fresh instance holds. */
  datatype Field = Field(name: string, column: Option<string>, transient: bool, ftype: JType, default: Value)

  /** The column a field is stored under: the @Column name when present,
      otherwise the snake-case conversion of the field name. */
  function ColumnOf(f: Field): string
  {
    match f.column
    case Some(n) => n
    case None => Naming.ColumnName(f.name)
  }

  /** A class: declared fields in declaration order, the names of its public
      zero-argument getters, the names of its public setters whose parameter
      type is the matching field's type, and whether newInstance succeeds. */
  datatype ClassDef = ClassDef(fields: seq<Field>, getters: set<string>, setters: set<string>, instantiable: bool)

  type Registry = map<string, ClassDef>

  /** A class the registry does not describe has no fields and no methods and
      cannot be instantiated. */
  function ClassOf(reg: Registry, c: string): ClassDef {
    if c in reg then reg[c] else ClassDef([], {}, {}, false)
  }

  /** getMethod(getX) succeeds on an instance of `c`. */
  predicate HasGetter(reg: Registry, c: string, f: Field) {
    |f.name| > 0 && Naming.GetterName(f.name) in ClassOf(reg, c).getters
  }

  /** getMethod(setX, fieldType) succeeds on an instance of `c`. */
  predicate HasSetter(reg: Registry, c: string, f: Field) {
    |f.name| > 0 && Naming.SetterName(f.name) in ClassOf(reg, c).setters
  }

  /** The declared type java.lang.Number: every number is assignable to it. */
  const NumberClass: AtomKind := NumberK(OtherN("java.lang.Number"))

  /** Widening primitive conversion between numeric types, identity included
      (section 5.1.2 of the Java Language Specification). */
  predicate Widens(from: NumClass, to: NumClass) {
    from == to ||
    match from
    case ByteN => to == ShortN || to == IntN || to == LongN || to == FloatN || to == DoubleN
    case ShortN => to == IntN || to == LongN || to == FloatN || to == DoubleN
    case IntN => to == LongN || to == FloatN || to == DoubleN
    case LongN => to == FloatN || to == DoubleN
    case FloatN => to == DoubleN
    case _ => false
  }

  /** The driver's ObjectId class: a declared type the custom-type test does
      not exclude. */
  const ObjectIdClass: string := "org.bson.types.ObjectId"

  const JavaMap: string := "java.util.Map"
  const DocumentClass: string := "org.bson.Document"

  /** A Map of class `from` is assignable to the declared Map class `to`: the
      same class, any Map to java.util.Map, and the java.util implementations
      to their superclasses (LinkedHashMap extends HashMap; HashMap and
      TreeMap extend AbstractMap). */
  predicate MapAssignable(from: string, to: string) {
    || from == to || to == JavaMap
    || (to == "java.util.AbstractMap" && from in {"java.util.HashMap", "java.util.LinkedHashMap", "java.util.TreeMap"})
    || (to == "java.util.HashMap" && from == "java.util.LinkedHashMap")
  }

  /** A reference of class `k` is assignable to the declared class `b`: the
      same class, any number to Number, a Map to a Map class above it, and a
      BasicDBObject (a BasicBSONObject, itself a LinkedHashMap) to the Map
      classes above it. */
  predicate Assignable(k: AtomKind, b: AtomKind) {
    || k == b
    || (b == NumberClass && k.NumberK?)
    || (k.MapK? && b.MapK? && MapAssignable(k.mapClass, b.mapClass))
    || (k == DBObjectK && b.MapK? && (b.mapClass == "org.bson.BasicBSONObject" || MapAssignable("java.util.LinkedHashMap", b.mapClass)))
  }

  /** Method.invoke accepts `v` as an argument of declared type `t`: null for
      any reference type; for a primitive parameter a wrapper that unboxes to
      that primitive or widens to it; for a reference parameter an assignable
      pass-through value; a Document for java.util.Map and for Document
      itself (Document implements Map and extends no Map class); any List,
      BasicDBList included, for List (generic arguments are erased); an
      ObjectId for ObjectId; an instance of exactly the class. Anything else is an
      IllegalArgumentException. */
  predicate Fits(v: Value, t: JType) {
    match v
    case Null => !t.Primitive?
    case Atom(k, _) =>
      (match t
       case Primitive(p) => k == p || (k.NumberK? && p.NumberK? && Widens(k.num, p.num))
       case Boxed(b) => Assignable(k, b)
       case ListOf(_) => k == DBListK
       case Custom(_) => false)
    case Oid(_) => t == Custom(ObjectIdClass)
    case Doc(_) => t == Boxed(MapK(JavaMap)) || t == Boxed(MapK(DocumentClass))
    case Arr(_) => t.ListOf?
    case Obj(c, _) => t == Custom(c)
  }

  /** A field of type `t` holds `v` as it is: a primitive field holds a value
      of its own primitive type (boxed when read through the getter). */
  predicate Native(v: Value, t: JType) {
    t.Primitive? && v.Atom? ==> v.kind == t.k
  }

  /** What the field holds once the setter has accepted `v`: a primitive
      parameter receives the unboxed value widened to its own type; a
      reference is stored as it is. The number keeps its text, so the
      precision an int-to-float or long-to-double widening can lose is not
      modelled. */
  function Assigned(v: Value, t: JType): (r: Value)
    ensures Fits(v, t) ==> Fits(r, t) && Native(r, t)
    ensures Native(v, t) ==> r == v
    ensures r.Atom? <==> v.Atom?
  {
    if t.Primitive? && v.Atom? then Atom(t.k, v.text) else v
  }

  /** A declared type both codecs pass through unchanged: not a custom
      type, and for a List, an element type that is not custom either. */
  predicate PassThrough(t: JType) {
    !IsGenericType(t) || (t.ListOf? && !IsGenericType(t.elem))
  }

  /** The field values of a freshly constructed instance: each declared
      field's default, a later declaration winning on a repeated name. */
  function Defaults(fields: seq<Field>): (m: map<string, Value>)
    ensures forall i :: 0 <= i < |fields| ==> fields[i].name in m
    ensures forall n :: n in m ==> exists i :: 0 <= i < |fields| && fields[i].name == n
  {
    if fields == [] then map[]
    else
      var last := fields[|fields| - 1];
      Defaults(fields[..|fields| - 1])[last.name := last.default]
  }

  /** newInstance of class `c`. */
  function Fresh(reg: Registry, c: string): Value {
    Obj(c, Defaults(ClassOf(reg, c).fields))
  }

  /** Field names are pairwise distinct, as Java guarantees for declared fields. */
  predicate DistinctNames(fields: seq<Field>) {
    forall i, j :: 0 <= i < j < |fields| ==> fields[i].name != fields[j].name
  }

  /** Non-transient fields map to pairwise distinct columns. */
  predicate DistinctColumns(fields: seq<Field>) {
    forall i, j :: 0 <= i < j < |fields| && !fields[i].transient && !fields[j].transient ==>
      ColumnOf(fields[i]) != ColumnOf(fields[j])
  }

  lemma {:induction false} DefaultsAt(fields: seq<Field>, i: nat)
    requires DistinctNames(fields) && i < |fields|
    ensures Defaults(fields)[fields[i].name] == fields[i].default
  {
    if i < |fields| - 1 {
      DefaultsAt(fields[..|fields| - 1], i);
    }
  }
}

=== FILE: spring_factory.dfy ===
/** The Spring Boot starter's MongoFactory: init from the uri, name and
    codec-package properties, and the collection accessors. The driver is
    replaced by a record of what the client is built from. */
module SpringFactory {
  import opened Results
  import opened Strings
  import Tables
  import Scanner
  import ScanAction

  /** The database handle: the uri its client connects to, the database
      name, and the codec classes registered (none: the default registry). */
  datatype Database = Database(uri: string, name: string, codecs: multiset<string>)

  /** The factory's fields: the collection-name cache, the codec set and
      the database (null until an init succeeds). */
  datatype SpringState = SpringState(tables: Tables.Cache, codecs: multiset<string>, db: Option<Database>)

  const Initial: SpringState := SpringState(map[], multiset{}, None)

  /** The database name init derives from the uri AS WRITTEN: the text after
      the last '/' up to the first '?'. String.substring throws when there is
      no '?' (the end index is -1) or the '?' comes before the last '/'. */
  function DbNameFromUri(uri: string): (r: Result<string>)
    ensures r.Err? <==> '?' !in uri || IndexOf(uri, '?') < LastIndexOf(uri, '/') + 1
    ensures r.Err? ==> r.error == StringIndexOutOfBounds
    ensures r.Ok? ==> '/' !in r.value && '?' !in r.value
  {
    var begin := LastIndexOf(uri, '/') + 1;
    var end := IndexOf(uri, '?');
    if begin <= end then Ok(uri[begin..end]) else Err(StringIndexOutOfBounds)
  }

  /** A standard connection string without options has no '?': the default
      name cannot be derived from it, while the same string with options
      yields the database name. */
  lemma DbNameWithoutOptionsFails(u: string, withOptions: string)
    requires u == "mongodb://h/test" && withOptions == u + "?w=1"
    ensures DbNameFromUri(u) == Err(StringIndexOutOfBounds)
    ensures DbNameFromUri(withOptions) == Ok("test")
  {
    assert '?' !in u;
    var v := withOptions;
    assert v[11] == '/' && '/' !in v[12..];
    LastIndexOfAt(v, '/', 11);
    assert v[16] == '?' && '?' !in v[..16];
    IndexOfAt(v, '?', 16);
    assert v[12..16] == "test";
  }

  /** `name` is the path segment of `uri` that ends at its options, starting
      at index `b`. */
  predicate LastSegmentAt(uri: string, b: int, name: string) {
    && 0 <= b <= b + |name| <= |uri| && uri[b..b + |name|] == name
    && (b == 0 || uri[b - 1] == '/')
    && (b + |name| == |uri| || uri[b + |name|] == '?')
    && '?' !in uri[..b + |name|]
  }

  /** The database name as evidently intended: the last path segment before
      the options, the options being everything from the first '?', if any. */
  function DbNameFromUriFixed(uri: string): (r: string)
    ensures '/' !in r && '?' !in r
    ensures exists b :: LastSegmentAt(uri, b, r)
  {
    var end := if '?' in uri then IndexOf(uri, '?') else |uri|;
    var path := uri[..end];
    var begin := LastIndexOf(path, '/') + 1;
    assert uri[begin..end] == path[begin..];
    assert uri[..begin + |path[begin..]|] == path;
    assert begin > 0 ==> uri[begin - 1] == path[begin - 1];
    assert LastSegmentAt(uri, begin, path[begin..]);
    path[begin..]
  }

  /** Where the as-written extraction succeeds, the corrected one agrees with
      it. */
  lemma DbNameFixAgrees(uri: string)
    requires DbNameFromUri(uri).Ok?
    ensures DbNameFromUri(uri).value == DbNameFromUriFixed(uri)
  {
    var end := IndexOf(uri, '?');
    var last := LastIndexOf(uri, '/');
    assert '?' in uri && 0 <= last + 1 <= end;
    var path := uri[..end];
    if last >= 0 {
      NotInSlice(uri[last + 1..], '/', 0, end - last - 1);
      assert uri[last + 1..][0..end - last - 1] == uri[last + 1..end] == path[last + 1..];
      LastIndexOfAt(path, '/', last);
    } else {
      assert '/' !in uri;
      NotInSlice(uri, '/', 0, end);
      assert path == uri[0..end];
    }
    assert LastIndexOf(path, '/') == last;
    assert path[last + 1..] == uri[last + 1..end];
  }

  /** The corrected extraction on the uri that defeats the as-written one. */
  lemma DbNameFixedExample(u: string)
    requires u == "mongodb://h/test"
    ensures DbNameFromUri(u).Err?
    ensures DbNameFromUriFixed(u) == "test"
  {
    assert '?' !in u;
    assert u[11] == '/' && '/' !in u[12..];
    LastIndexOfAt(u, '/', 11);
    assert u[..|u|] == u;
    assert u[12..] == "test";
  }

  /** init: a null uri or codec package, and a codec class that cannot be
      loaded or instantiated, end init with the exception printed and the
      database unchanged; codecs added before such a failure stay in the codec set. A
      null name is derived from the uri (with the corrected extraction). */
  function Init(st: SpringState, uri: Option<string>, dbName: Option<string>, codecPackage: Option<string>,
                classes: ScanAction.ClassPath, loader: map<string, seq<Scanner.Resource>>): (r: SpringState)
    ensures uri.None? || codecPackage.None? ==> r == st
    ensures r.tables == st.tables && st.codecs <= r.codecs
    ensures r.db != st.db ==> r.db.Some? && uri.Some? && r.db.value.uri == uri.value && r.db.value.codecs == r.codecs
    ensures r.db != st.db && dbName.Some? ==> r.db.value.name == dbName.value
  {
    match (uri, codecPackage)
    case (Some(u), Some(pkg)) =>
      var name := match dbName case Some(n) => n case None => DbNameFromUriFixed(u);
      var names := Scanner.Scan(Some([pkg]), true, loader);
      var outcome := ScanAction.AddCodecs(classes, st.codecs, names);
      AddCodecsGrow(classes, st.codecs, names);
      if outcome.failure.Some? then st.(codecs := outcome.codecs)
      else st.(codecs := outcome.codecs, db := Some(Database(u, name, outcome.codecs)))
    case _ => st
  }

  /** addCodec only ever adds to the codec set. */
  lemma {:induction false} AddCodecsGrow(classes: ScanAction.ClassPath, codecs: multiset<string>, names: seq<string>)
    ensures codecs <= ScanAction.AddCodecs(classes, codecs, names).codecs
    decreases |names|
  {
    if names != [] {
      var r0 := ScanAction.AddCodec(classes, codecs, names[0]);
      if r0.Ok? {
        AddCodecsGrow(classes, r0.value, names[1..]);
      }
    }
  }

  /** With both properties present, a name property or a uri the as-written
      extraction can cut, and every scanned name accepted, init connects: the
      database is named by the name property, or else by the uri's text
      between the last '/' and the '?', and registers one instance of every
      starter codec class found. */
  lemma InitConnects(uri: string, dbName: Option<string>, pkg: string,
                     classes: ScanAction.ClassPath, loader: map<string, seq<Scanner.Resource>>)
    requires dbName.Some? || DbNameFromUri(uri).Ok?
    requires forall x :: x in Scanner.Scan(Some([pkg]), true, loader) ==> !ScanAction.Rejected(classes, x)
    ensures var names := Scanner.Scan(Some([pkg]), true, loader);
      var name := match dbName case Some(n) => n case None => DbNameFromUri(uri).value;
      Init(Initial, Some(uri), dbName, Some(pkg), classes, loader).db
        == Some(Database(uri, name, multiset(ScanAction.SpringCodecsAmong(classes, names))))
  {
    NameAsWritten(uri, dbName);
    var names := Scanner.Scan(Some([pkg]), true, loader);
    assert forall i :: 0 <= i < |names| ==> names[i] in names;
    ScanAction.AddCodecsComplete(classes, multiset{}, names);
    assert multiset{} + multiset(ScanAction.SpringCodecsAmong(classes, names)) == multiset(ScanAction.SpringCodecsAmong(classes, names));
  }

  /** Where the as-written extraction succeeds, init's name is the one the
      program as written derives. */
  lemma NameAsWritten(uri: string, dbName: Option<string>)
    requires dbName.Some? || DbNameFromUri(uri).Ok?
    ensures (match dbName case Some(n) => n case None => DbNameFromUriFixed(uri))
      == (match dbName case Some(n) => n case None => DbNameFromUri(uri).value)
  {
    if dbName.None? {
      DbNameFixAgrees(uri);
    }
  }

  /** A rejected codec class leaves the factory without a database. */
  lemma InitFailsOnRejectedCodec(uri: string, dbName: Option<string>, pkg: string,
                                 classes: ScanAction.ClassPath, loader: map<string, seq<Scanner.Resource>>, k: nat)
    requires k < |Scanner.Scan(Some([pkg]), true, loader)|
    requires ScanAction.Rejected(classes, Scanner.Scan(Some([pkg]), true, loader)[k])
    ensures Init(Initial, Some(uri), dbName, Some(pkg), classes, loader).db.None?
  {
    var names := Scanner.Scan(Some([pkg]), true, loader);
    ScanAction.AddCodecsFailsIff(classes, multiset{}, names);
  }

  /** A collection of the database. */
  datatype Collection = Collection(database: Database, name: string)

  /** getCollection(String): a NullPointerException while there is no
      database. */
  function CollectionNamed(st: SpringState, collName: string): (r: Result<Collection>)
    ensures r.Ok? <==> st.db.Some?
    ensures r.Ok? ==> r.value == Collection(st.db.value, collName)
    ensures r.Err? ==> r.error == NullPointer
  {
    match st.db
    case Some(db) => Ok(Collection(db, collName))
    case None => Err(NullPointer)
  }

  /** getCollection(Class): the collection-name lookup comes first, so a
      class without @Table fails with IllegalArgumentException even when
      there is no database; the lookup's cache update is kept either way. */
  function CollectionOf(st: SpringState, annotations: Tables.Annotations, cls: string): (r: (Result<Collection>, SpringState))
    ensures r.1 == st.(tables := Tables.CollectionName(st.tables, annotations, cls).cache)
    ensures r.0.Ok? <==> (cls in st.tables || Tables.Named(annotations, cls)) && st.db.Some?
    ensures !(cls in st.tables || Tables.Named(annotations, cls)) ==> r.0 == Err(IllegalArgument(cls))
    ensures (cls in st.tables || Tables.Named(annotations, cls)) && st.db.None? ==> r.0 == Err(NullPointer)
    ensures r.0.Ok? ==> r.0.value.database == st.db.value && r.0.value.name == r.1.tables[cls]
  {
    var lookup := Tables.CollectionName(st.tables, annotations, cls);
    var next := st.(tables := lookup.cache);
    match lookup.name
    case Err(e) => (Err(e), next)
    case Ok(collName) => (CollectionNamed(next, collName), next)
  }
}

=== FILE: strings.dfy ===
/** The java.lang.String operations the scanner and factories rely on. */
module Strings {

  predicate StartsWith(s: string, prefix: string) {
    |prefix| <= |s| && s[..|prefix|] == prefix
  }

  predicate EndsWith(s: string, suffix: string) {
    |suffix| <= |s| && s[|s| - |suffix|..] == suffix
  }

  /** indexOf: the first position of `c`, or -1. */
  function IndexOf(s: string, c: char): (r: int)
    ensures -1 <= r < |s|
    ensures r == -1 <==> c !in s
    ensures r >= 0 ==> s[r] == c && c !in s[..r]
  {
    if |s| == 0 then -1
    else if s[0] == c then 0
    else
      var k := IndexOf(s[1..], c);
      if k == -1 then -1 else k + 1
  }

  /** lastIndexOf: the last position of `c`, or -1. */
  function LastIndexOf(s: string, c: char): (r: int)
    ensures -1 <= r < |s|
    ensures r == -1 <==> c !in s
    ensures r >= 0 ==> s[r] == c && c !in s[r + 1..]
  {
    if |s| == 0 then -1
    else if s[|s| - 1] == c then |s| - 1
    else
      var k := LastIndexOf(s[..|s| - 1], c);
      assert k >= 0 ==> s[k + 1..] == s[..|s| - 1][k + 1..] + [s[|s| - 1]];
      k
  }

  /** String.replace(char, char) (and replaceAll with a one-character
      literal pattern): every occurrence of `a` becomes `b`. */
  function Replace(s: string, a: char, b: char): (r: string)
    ensures |r| == |s|
    ensures forall i :: 0 <= i < |s| ==> r[i] == if s[i] == a then b else s[i]
  {
    if |s| == 0 then [] else Replace(s[..|s| - 1], a, b) + [if s[|s| - 1] == a then b else s[|s| - 1]]
  }

  /** Replacing a character that does not occur, after replacing it away,
      undoes the first replacement. */
  lemma ReplaceInverse(s: string, a: char, b: char)
    requires b !in s && a != b
    ensures a !in Replace(s, a, b)
    ensures Replace(Replace(s, a, b), b, a) == s
  {
  }

  /** The first occurrence is the one with no occurrence before it. */
  lemma IndexOfAt(s: string, c: char, k: nat)
    requires k < |s| && s[k] == c && c !in s[..k]
    ensures IndexOf(s, c) == k
  {
  }

  /** The last occurrence is the one with no occurrence after it. */
  lemma LastIndexOfAt(s: string, c: char, k: nat)
    requires k < |s| && s[k] == c && c !in s[k + 1..]
    ensures LastIndexOf(s, c) == k
  {
  }

  /** A character absent from a string is absent from each of its slices. */
  lemma NotInSlice(s: string, c: char, i: nat, j: nat)
    requires c !in s && i <= j <= |s|
    ensures c !in s[i..j]
  {
  }
}

=== FILE: tables.dfy ===
/** getCollectionName, identical in both factories: the collection name of an
    entity class is its @Table name, looked up once and then served from a
    per-factory cache. Annotations are given as a map from class name to the
    declared table name; a class without @Table has no entry. */
module Tables {
  import opened Results

  type Annotations = map<string, string>
  type Cache = map<string, string>

  /** A lookup's answer and the cache after it. */
  datatype Lookup = Lookup(name: Result<string>, cache: Cache)

  /** Every cached name is the class's non-empty @Table name. */
  predicate CacheValid(cache: Cache, annotations: Annotations) {
    forall c :: c in cache ==> c in annotations && cache[c] == annotations[c] && cache[c] != ""
  }

  /** A class whose @Table declares a non-empty name. */
  predicate Named(annotations: Annotations, cls: string) {
    cls in annotations && annotations[cls] != ""
  }

  /** getCollectionName: a cached name is returned as it is; otherwise a
      non-empty @Table name is cached and returned; otherwise the lookup fails
      with IllegalArgumentException (its message, the class name followed by a
      fixed phrase, is reduced to the class name) and caches nothing. */
  function CollectionName(cache: Cache, annotations: Annotations, cls: string): (r: Lookup)
    ensures r.name.Ok? <==> cls in cache || Named(annotations, cls)
    ensures r.name.Err? ==> r.name.error == IllegalArgument(cls) && r.cache == cache
    ensures r.name.Ok? ==> cls in r.cache && r.cache[cls] == r.name.value
    ensures forall c :: c in cache ==> c in r.cache && r.cache[c] == cache[c]
    ensures forall c :: c in r.cache && c != cls ==> c in cache
  {
    if cls in cache then Lookup(Ok(cache[cls]), cache)
    else if cls in annotations && annotations[cls] != "" then
      Lookup(Ok(annotations[cls]), cache[cls := annotations[cls]])
    else Lookup(Err(IllegalArgument(cls)), cache)
  }

  /** With a valid cache the answer is exactly the class's @Table name: a
      lookup succeeds iff the annotation names a collection, returns that
      non-empty name, and leaves the cache valid. */
  lemma CollectionNameSound(cache: Cache, annotations: Annotations, cls: string)
    requires CacheValid(cache, annotations)
    ensures var r := CollectionName(cache, annotations, cls);
      && (r.name.Ok? <==> Named(annotations, cls))
      && (r.name.Ok? ==> r.name.value == annotations[cls] && r.name.value != "")
      && CacheValid(r.cache, annotations)
  {
  }

  /** Asking again gives the same answer and leaves the cache as it is. */
  lemma CollectionNameIdempotent(cache: Cache, annotations: Annotations, cls: string)
    ensures var r := CollectionName(cache, annotations, cls);
      var again := CollectionName(r.cache, annotations, cls);
      again.name == r.name && again.cache == r.cache
  {
  }

  /** Once cached, a name no longer depends on the annotation: a class whose
      annotation is removed or changed keeps its first name. */
  lemma CachedNameWins(cache: Cache, annotations: Annotations, later: Annotations, cls: string)
    requires Named(annotations, cls)
    ensures var first := CollectionName(cache, annotations, cls);
      CollectionName(first.cache, later, cls).name == first.name
  {
  }
}
